=== FILE: README.md ===
# GoTo OAuth provider for OWIN, modelled in Dafny

This project models the core of the GoTo (LogMeIn) OAuth 2.0 sign-in middleware for OWIN. That middleware runs the authorization code flow of RFC 6749. It has four parts:

- **Challenge** (`ApplyResponseChallengeAsync`). It turns a 401 into a redirect to the authorization endpoint. The request carries `response_type=code`, the client id, the callback uri and the protected authentication properties as `state`.
- **Callback** (`AuthenticateCoreAsync`). It does the following, in order:
  - decodes the single `state` value;
  - honours a single `error` value;
  - checks the correlation (anti-forgery) value;
  - exchanges the code at the token endpoint, using an HTTP Basic client credential;
  - reads the user's profile;
  - builds the `GoToAuthenticatedContext`;
  - maps the context to a claims identity.

  Every failure after `state` decodes yields a ticket without an identity but with the decoded properties. Once the correlation check has run, the correlation entry is gone from those properties unless the cookie was missing or blank: the check removes it whatever its verdict, and leaves the properties alone only when there is no cookie value to compare.
- **Reply path** (`InvokeReplyPathAsync`). On the callback path it signs the identity in under the configured sign-in type. It then redirects to the return uri, adding `error=access_denied` when there is no identity.
- **Middleware constructor**. It validates the client credentials and fills in defaults for the provider, the state format and the sign-in type. It also chooses the back-channel handler (`ResolveHttpMessageHandler`).

Everything is written as pure functions over immutable datatypes. The following are inputs, not modelled behaviour:

- the state protector (`protect`, `unprotect`);
- the correlation cookie the callback request carries;
- the fresh correlation value;
- the two back-channel calls, as a `Backchannel` of two functions from request to outcome;
- the application's default sign-in type.

The supporting encodings are modelled precisely, each with its round trip proved:

- UTF-8 (`Utf8`);
- Base64 as in section 4 of RFC 4648 (`Base64`);
- percent-encoding as in section 2 of RFC 3986 (`UriEscape`);
- the query string that `WebUtilities.AddQueryString` produces, with a reader playing the part of the receiving server (`QueryString`);
- `Int32.TryParse` in the invariant culture (`Int32Parse`);
- `String.Trim` (`Text`);
- the part of Newtonsoft's `JToken` that is used (`Json`).

The module `Handshake` composes the parts. It models the authorization server only as far as section 4.1.2 of RFC 6749 fixes it: the server returns `state` and a code.

Three behaviours of the code are worth stating on their own:

- A non-success status from the profile endpoint leaves the user JSON null. The context constructor then throws on `userJson["id"]`, and the catch-all turns the result into a failed ticket (`Callback.ProfileFailureFailsHandshake`).
- Section 5.1 of RFC 6749 makes `access_token` REQUIRED in a successful token response. The handler never checks that it is present (`Callback.MissingAccessTokenNotChecked`).
- The handler-mismatch message is spelled as the code spells it: `Vaidator Handler Mismatch`.

## Model

| member | source | states |
|---|---|---|
| Text.Trim | GoTo-OAuth-Provider/GoToAuthenticationHandler.cs:127 | `String.Trim` returns an infix of its argument: what is cut on each side is all white space, and the result neither starts nor ends with white space |
| Text.TrimPadded | GoTo-OAuth-Provider/GoToAuthenticationHandler.cs:127 | trimming any white space around a core that has no white space at its ends gives back exactly that core |
| Utf8.DecodeEncode | GoTo-OAuth-Provider/GoToAuthenticationHandler.cs:275 | decoding the UTF-8 bytes of any string gives back the string |
| Utf8.EncodeInjective | GoTo-OAuth-Provider/GoToAuthenticationHandler.cs:275 | two strings with the same UTF-8 bytes are equal |
| Base64.DecodeEncode | GoTo-OAuth-Provider/GoToAuthenticationHandler.cs:276 | decoding the Base64 text of any byte sequence gives back the bytes |
| Base64.EncodeDecode | GoTo-OAuth-Provider/GoToAuthenticationHandler.cs:276 | any text the decoder accepts is the encoding of what it decodes to, so the encoding is canonical |
| Base64.Encode | GoTo-OAuth-Provider/GoToAuthenticationHandler.cs:276 | the encoding has four characters per started group of three bytes, and all but the last group are drawn from the alphabet |
| Credentials.ToBase64 | GoTo-OAuth-Provider/GoToAuthenticationHandler.cs:273-277 | the handler's `ToBase64` has four characters per started group of three UTF-8 bytes of its input |
| Credentials.ToBase64Decodes | GoTo-OAuth-Provider/GoToAuthenticationHandler.cs:273-277 | the result of `ToBase64` decodes, as Base64 and then as UTF-8, back to its input |
| Credentials.SplitAtColon | GoTo-OAuth-Provider/GoToAuthenticationHandler.cs:83 | a user-pass splits at its first colon: the halves rejoin with `:` to the whole, the first half has no colon, and there is no split exactly when there is no colon |
| Credentials.ReadBasicAuthorization | GoTo-OAuth-Provider/GoToAuthenticationHandler.cs:82-83 | a server reading the Basic credential as section 2 of RFC 7617 says recovers the client id and secret, provided the id has no colon |
| Int32Parse.Parse | GoTo-OAuth-Provider/Provider/GoToAuthenticatedContext.cs:31-35 | `Int32.TryParse` yields only 32-bit values, and fails on null |
| Int32Parse.ParseShape | GoTo-OAuth-Provider/Provider/GoToAuthenticatedContext.cs:31-35 | every string `Int32.TryParse` accepts is white space, an optional sign, at least one digit, white space and NULs, and its value is the signed value of those digits; with `ParseOfParts` this makes the grammar exactly the accepted set |
| Int32Parse.ParseOfParts | GoTo-OAuth-Provider/Provider/GoToAuthenticatedContext.cs:31-35 | white space, an optional sign, digits, white space and trailing NULs parse to the signed value of the digits exactly when it fits in 32 bits |
| Int32Parse.ParseFormat | GoTo-OAuth-Provider/Provider/GoToAuthenticatedContext.cs:31-35 | parsing the invariant rendering of any integer gives it back when it fits in 32 bits and fails otherwise |
| Int32Parse.ParsePlainExample | GoTo-OAuth-Provider/Provider/GoToAuthenticatedContext.cs:32 | `"3600"` parses to 3600 |
| Int32Parse.ParseSignNulExample | GoTo-OAuth-Provider/Provider/GoToAuthenticatedContext.cs:32 | a leading `+` and a trailing NUL are accepted: `"+7\0"` parses to 7 |
| Json.Child | GoTo-OAuth-Provider/Provider/GoToAuthenticatedContext.cs:41-42 | `token?[key]` keeps null as null; on an object it is the property under the key, or null when there is none; it throws exactly when indexing something that is not an object |
| Json.AsString | GoTo-OAuth-Provider/Provider/GoToAuthenticatedContext.cs:40 | `Value<string>()` gives the text of a scalar, null for null and JSON null, and throws exactly for an object or array |
| Json.StringField | GoTo-OAuth-Provider/GoToAuthenticationHandler.cs:99-102 | `Value<string>(key)` on an object succeeds exactly when the field is convertible, and then yields the field's text or null |
| AuthenticatedContext.NameField | GoTo-OAuth-Provider/Provider/GoToAuthenticatedContext.cs:41-42 | `userJson["name"]?[key]?.Value<string>()` is the text under `name.key` when there is one; it throws exactly when `name` is not an object or the field is an object or array |
| AuthenticatedContext.New | GoTo-OAuth-Provider/Provider/GoToAuthenticatedContext.cs:24-43 | the constructor throws on a null user JSON and succeeds exactly on readable profiles. It stores the access token, refresh token and email verbatim. `ExpiresIn` is set exactly when `expires` parses as a 32-bit integer, to that value. `UserId` comes from `id`, and the given name and surname from `name.givenName` and `name.familyName`, null when absent. `Scope` stays null |
| Claims.DisplayNameParts | GoTo-OAuth-Provider/GoToAuthenticationHandler.cs:125-130 | for names without surrounding white space, the name claim is the two names joined by one space when both are present, and whichever is present otherwise |
| Claims.FindCandidate | GoTo-OAuth-Provider/GoToAuthenticationHandler.cs:120-145 | each of the five claim types is found in the identity with the value the context gives it, and is absent when that source is null or empty |
| Claims.FindNoRole | GoTo-OAuth-Provider/GoToAuthenticationHandler.cs:115-118 | no role claim is ever added |
| Claims.MapIdentity | GoTo-OAuth-Provider/GoToAuthenticationHandler.cs:115-145 | the identity carries the authentication type, the default name and role claim types, and at most five claims. The claims are in the order name identifier, name, email, given name, surname, each typed as a string and issued under the authentication type, or under `LOCAL AUTHORITY` (`ClaimsIdentity.DefaultIssuer`, which the `Claim` constructor puts in place of an empty issuer) when that type is empty. For every claim type, the first claim found is the one the context calls for |
| Protocol.ValuesOne | GoTo-OAuth-Provider/GoToAuthenticationHandler.cs:50 | a single query pair contributes its value to `GetValues` exactly when its name matches the key, ignoring case |
| Protocol.ValuesAppend | GoTo-OAuth-Provider/GoToAuthenticationHandler.cs:50 | the values of a concatenated query are those of each part, in order; with `ValuesOne`, `GetValues` lists the matching pairs' values in query order |
| Protocol.SingleValue | GoTo-OAuth-Provider/GoToAuthenticationHandler.cs:50-54 | a parameter's value is used exactly when it occurs once |
| Callback.MakeTokenRequest | GoTo-OAuth-Provider/GoToAuthenticationHandler.cs:79-93 | the token request goes to the token endpoint with the Basic credential of `clientId:clientSecret`. Its form is exactly `grant_type=authorization_code`, `code`, `redirect_uri`, in that order, with the callback uri |
| Callback.TokenRequestCredentials | GoTo-OAuth-Provider/GoToAuthenticationHandler.cs:82-83 | the token endpoint reads the client id and secret back from the request's Basic header |
| Callback.ReadTokenResponse | GoTo-OAuth-Provider/GoToAuthenticationHandler.cs:92-102 | the token response is read exactly when the status is a success and the body is a JSON object whose four fields convert; a non-success status fails with its code; the fields read are `access_token`, `expires_in`, `refresh_token` and `principal` |
| Callback.ReadProfileResponse | GoTo-OAuth-Provider/GoToAuthenticationHandler.cs:104-112 | a transport failure throws; a non-success status leaves the user JSON null; a success must carry a JSON object, which becomes the user JSON |
| Callback.ValidateCorrelationId | GoTo-OAuth-Provider/GoToAuthenticationHandler.cs:73-77 | the correlation check passes exactly when the request carries a non-blank correlation cookie equal to the decoded properties' correlation value. When the cookie is there, the correlation entry is removed whatever the verdict. Nothing else in the properties changes |
| Callback.AuthenticateCore | GoTo-OAuth-Provider/GoToAuthenticationHandler.cs:38-157 | There is no ticket exactly when `state` does not decode. Otherwise the ticket's properties are the decoded ones after a single `error`, and the ones the correlation check leaves in every other case. The token request is made exactly when there is no single `error` and the correlation check passes, and it is the one `MakeTokenRequest` describes for the single `code`. The profile request is made exactly when the token response reads, and is the GET of the user-info endpoint with the access token as Bearer credentials (`MakeProfileRequest`). The ticket has an identity exactly when the profile response yields a readable user JSON, and the identity is the claim mapping of the constructed context |
| Callback.ErrorShortCircuits | GoTo-OAuth-Provider/GoToAuthenticationHandler.cs:61-65 | a single `error` value gives a ticket with no identity and the decoded properties, and no back-channel request is made |
| Callback.CorrelationFailureShortCircuits | GoTo-OAuth-Provider/GoToAuthenticationHandler.cs:73-77 | a callback whose correlation cookie is missing, blank or different from the decoded correlation value (a forged callback) gets a ticket with no identity, and no back-channel request is made. The ticket keeps the decoded properties, less the correlation entry when the cookie was there |
| Callback.StateMustBeSingle | GoTo-OAuth-Provider/GoToAuthenticationHandler.cs:50-59 | a query with no `state` or several gives no ticket, when the protector maps null to null |
| Callback.ProfileFailureFailsHandshake | GoTo-OAuth-Provider/GoToAuthenticationHandler.cs:104-114 | a non-success profile status after a good token response fails the handshake: the ticket has no identity but keeps the decoded properties, less the consumed correlation entry |
| Callback.MissingAccessTokenNotChecked | GoTo-OAuth-Provider/GoToAuthenticationHandler.cs:99-106 | a token response without `access_token` is accepted. The profile request then carries a Bearer header with no credential, and the handshake can still succeed |
| UriEscape.Escape | GoTo-OAuth-Provider/GoToAuthenticationHandler.cs:204 | an escaped text is made of unreserved characters and `%` only, so it never contains `&`, `=`, `?` or `#` |
| UriEscape.UnescapeEscape | GoTo-OAuth-Provider/GoToAuthenticationHandler.cs:204 | unescaping the escape of any text gives back the text |
| UriEscape.EscapeInjective | GoTo-OAuth-Provider/GoToAuthenticationHandler.cs:204 | different texts escape to different texts |
| UriEscape.EscapeUnreserved | GoTo-OAuth-Provider/GoToAuthenticationHandler.cs:258 | a text of unreserved characters is its own escape |
| QueryString.AddQueryStringShape | GoTo-OAuth-Provider/GoToAuthenticationHandler.cs:204 | adding parameters gives the uri, then `?` (or `&` when the uri already has a query), then the escaped parameters joined by `&` |
| QueryString.ReadAddQueryString | GoTo-OAuth-Provider/GoToAuthenticationHandler.cs:196-204 | a reader of a uri built by adding parameters to a uri without a query finds exactly those parameters, in order |
| QueryString.ReadAddParameter | GoTo-OAuth-Provider/GoToAuthenticationHandler.cs:258 | adding one parameter to a uri without a fragment whose query reads back adds exactly that parameter at the end of what a reader finds |
| QueryString.ReadAddParameterFragment | GoTo-OAuth-Provider/GoToAuthenticationHandler.cs:258 | a parameter added to a uri with a fragment lands inside the fragment, so the query a reader finds is unchanged |
| Challenge.PrepareProperties | GoTo-OAuth-Provider/GoToAuthenticationHandler.cs:187-194 | the redirect target becomes the current uri only when it is null or empty; the correlation value is the fresh one; the other items are unchanged |
| Challenge.AuthorizationUri | GoTo-OAuth-Provider/GoToAuthenticationHandler.cs:196-204 | the authorization uri starts with the authorize endpoint and `?`, and its query reads back as exactly `response_type=code`, `client_id`, `redirect_uri` and `state` |
| Challenge.ApplyResponseChallenge | GoTo-OAuth-Provider/GoToAuthenticationHandler.cs:160-210 | There is a redirect exactly when the status is 401 and a challenge was found. Its properties are the challenge's, prepared with the fresh correlation value; a challenge with a null or empty return uri gets the current uri (`CurrentUri`: scheme, host, path base, path and query string of the request). Its query reads back as exactly `response_type=code`, the client id, the base uri plus callback path, and the protected properties as `state` |
| ReplyPath.GrantIdentity | GoTo-OAuth-Provider/GoToAuthenticationHandler.cs:239-248 | the identity signed in has the sign-in type and keeps the claims, name claim type and role claim type |
| ReplyPath.AccessDeniedParameter | GoTo-OAuth-Provider/GoToAuthenticationHandler.cs:258 | the hint goes out unescaped as `error=access_denied` |
| ReplyPath.ReturnUri | GoTo-OAuth-Provider/GoToAuthenticationHandler.cs:252-260 | the return uri is unchanged when there is an identity. Otherwise `error=access_denied` is appended after `?` or `&`. For a return uri without a fragment, a reader of the query finds the original parameters followed by the hint. For one with a fragment, the hint ends up in the fragment and the query reads as before |
| ReplyPath.InvokeReplyPath | GoTo-OAuth-Provider/GoToAuthenticationHandler.cs:219-267 | Another path is not handled (`IsCallbackPath`: the callback path is set and equals the request path). A null ticket is a 500 and handled; the only other status is the 302 that `Response.Redirect` sets, exactly when there is a redirect. Sign-in happens exactly when a sign-in type is configured and the ticket has an identity, with the ticket's properties and the identity's claims. A redirect happens exactly when the ticket has a return uri, to the `ReturnUri` of it. The request counts as handled exactly on a 500 or a redirect |
| Middleware.ResolveHttpMessageHandler | GoTo-OAuth-Provider/GoToAuthenticationMiddleware.cs:71-88 | A certificate validator with a supplied handler that is not a `WebRequestHandler` is an `InvalidOperationException`, and that is the only error. Otherwise the handler is the supplied one, or a new `WebRequestHandler`, carrying the validator when one is given |
| Middleware.Create | GoTo-OAuth-Provider/GoToAuthenticationMiddleware.cs:20-56 | A null, empty or blank client id is rejected first, then the same for the client secret. The provider and state format are defaulted only when null; the default state format uses the middleware's name, the authentication type and `v1` (`StatePurposes`). The sign-in type falls back to the application default only when null or empty. Nothing else in the options changes. The client uses the resolved handler, the timeout and a 10 MB buffer. The timeout must be infinite or positive and at most `Int32.MaxValue` milliseconds, otherwise `ArgumentOutOfRangeException`. With valid credentials, a failing sign-in default is reported first, then the handler rule, then the timeout range, and these are the only other failures |
| Middleware.CreateIdempotent | GoTo-OAuth-Provider/GoToAuthenticationMiddleware.cs:33-49 | options the constructor completed are accepted again unchanged, with the same client |
| Handshake.ServerReturnsState | GoTo-OAuth-Provider/GoToAuthenticationHandler.cs:201-206 | the server's reply to a challenge's redirect carries the protected properties back as `state` |
| Handshake.ChallengeRedirect | GoTo-OAuth-Provider/GoToAuthenticationHandler.cs:183-206 | a 401 challenge redirects, carries the fresh correlation value in the protected properties, and sends the callback uri as its third parameter |
| Handshake.CallbackOfReply | GoTo-OAuth-Provider/GoToAuthenticationHandler.cs:50-89 | for a server reply whose state decodes and whose correlation cookie matches, the callback recovers the properties less their correlation entry, and exchanges the reply's code with this request's callback uri |
| Handshake.ChallengeThenCallback | GoTo-OAuth-Provider/GoToAuthenticationHandler.cs:183-204 | Take a protector whose `Unprotect` inverts `Protect`, and a callback to the same base uri that carries the correlation cookie the challenge set and whose query is the code and the protected properties. That query is exactly the server's reply to the challenge's redirect. The correlation check passes, and the callback recovers the properties the challenge protected, less the correlation entry the check consumes. The token request then carries the reply's code and the same `redirect_uri` the authorization request sent |
| Handshake.FailedCallbackDeniesAccess | GoTo-OAuth-Provider/GoToAuthenticationHandler.cs:252-262 | a callback that fails after `state` decodes is handled by redirecting (302) to the return uri with `error=access_denied`, and signs nothing in |
| Handshake.SuccessfulCallbackSignsIn | GoTo-OAuth-Provider/GoToAuthenticationHandler.cs:237-262 | a successful callback signs in under the configured type, with the ticket's properties and the mapped claims, and redirects (302) to the unchanged return uri |
| Handshake.ExampleTokenFields | GoTo-OAuth-Provider/GoToAuthenticationHandler.cs:98-102 | a concrete token body reads as its access token, expiry, missing refresh token and email |
| Handshake.ExampleContextBuilt | GoTo-OAuth-Provider/Provider/GoToAuthenticatedContext.cs:24-43 | a concrete profile builds the context with user id, given name, surname and a 3600-second expiry |
| Handshake.WorkedExample | GoTo-OAuth-Provider/GoToAuthenticationHandler.cs:92-150 | a concrete successful callback yields the five claims, with the name claim `Ana Lee` joined from the two names |

## Left out

- The state protector (`Protect`/`Unprotect` and the data protector behind them) is an input function. Its round trip is a precondition of `Handshake.ChallengeThenCallback`, not an axiom.
- `GenerateCorrelationId` and `ValidateCorrelationId` are OWIN base-class code (`Microsoft.Owin.Security`) backed by a cookie. The fresh value and the cookie the callback carries are inputs; the check itself is modelled after the base class (`Callback.ValidateCorrelationId`). Setting and deleting the cookie are not modelled.
- The HTTP transport, `async`/`await`, the back-channel timeout's effect, the 10 MB buffer's effect and logging are not modelled. The timeout is carried through as a number of ticks, with the range check of the `HttpClient.Timeout` setter, and the buffer size as a constant.
- The shared `DefaultRequestHeaders.Authorization` is assigned on every callback. That cross-request mutation is a concurrency concern; the model attaches the header to the token request it belongs to.
- JSON parsing is not modelled. A body arrives already parsed, or as `None` when it is not JSON. Numbers and booleans arrive as text in the form `Value<string>()` renders them.
- The `Authenticated` and `ReturnEndpoint` provider hooks are application code. They are modelled as leaving the context unchanged, so `IsRequestCompleted` is false until the redirect.
- `PathString`, `HostString` and `QueryString` are taken in their rendered form. `PathString` equality and the query's parameter names compare with ASCII case folding only; non-ASCII `OrdinalIgnoreCase` folding is not modelled.
- `Uri.EscapeDataString` is modelled as percent-encoding per section 2 of RFC 3986, which is the .NET Framework 4.5 behaviour.
- The authorization parameters are held in a `Dictionary` with case-insensitive keys. The model takes its enumeration order to be insertion order, which holds for a dictionary with no removals.
- `ResolveHttpMessageHandler` sets the validation callback on the handler object the application supplied. The model returns the handler with the validator attached and leaves the options' handler value as it was.
- The application's default sign-in type (`GetDefaultSignInAsAuthenticationType`) is an input, and may be a failure.
- `TimeSpan.FromSeconds` is not modelled: `ExpiresIn` is kept as a number of seconds.
- `GoToAuthenticationExtensions.cs` is not part of this model. It is a null-checking wrapper around `app.Use`.
- Callback.AuthenticateCore: the state protector is taken to be non-throwing, as the default `SecureDataFormat` is (it catches its own failures and returns null). A custom `StateDataFormat` whose `Unprotect` throws reaches the catch-all with the properties still null, giving a ticket without an identity or properties rather than no ticket; the reply path then fails with a `NullReferenceException` reading the return uri. Neither is modelled.
- Callback.StateMustBeSingle: states the no-ticket outcome only for a protector that maps null to null. `Unprotect(null)` is library code that returns null.
- Challenge.ApplyResponseChallenge: the challenge lookup (`Helper.LookupChallenge`) is an input; the model receives its result, not the authentication mode it matches on.
- Utf8.EncodeInjective: holds for strings of Unicode scalar values, which is what a Dafny `char` is. A .NET string is UTF-16 and can hold a lone surrogate, which `Encoding.UTF8.GetBytes` replaces by the bytes of U+FFFD, so two such strings can share their bytes.
- Utf8.DecodeEncode: the same limit: a string with a lone surrogate does not come back from its UTF-8 bytes.
- Credentials.ToBase64Decodes: the same limit: for a client id or secret with a lone surrogate, the Basic credential decodes to a different string.
- UriEscape.Escape: `Uri.EscapeDataString` throws on a string with a lone surrogate; Dafny strings cannot hold one, so that failure is not modelled. It also throws `UriFormatException` on .NET Framework 4.5 for a string longer than 32766 characters; the model escapes a string of any length.
- Challenge.ApplyResponseChallenge: because of that length limit, a protected `state` (or client id, or redirect uri) longer than 32766 characters makes the source throw instead of redirecting; the model always redirects. The protected properties carry the return uri, so a very long return uri reaches the limit.

=== FILE: authenticated_context.dfy ===
/** `GoToAuthenticatedContext`: what the provider learns from the token and
    profile responses, extracted field by field in its constructor. */
module AuthenticatedContext {
  import opened Wrappers
  import opened Json
  import Int32Parse

  /** The context's data; `expiresIn` is a number of seconds (`TimeSpan.FromSeconds`). */
  datatype Context = Context(
    accessToken: Option<string>,
    refreshToken: Option<string>,
    expiresIn: Option<int>,
    email: Option<string>,
    userId: Option<string>,
    givenName: Option<string>,
    surname: Option<string>,
    scope: Option<seq<string>>)

  /** `userJson["name"]?[key]?.Value<string>()`. */
  function NameField(user: map<string, Json>, key: string): (r: Result<Option<string>, Fault>)
    ensures r.Ok? && r.value.Some? <==>
              "name" in user && user["name"].Object? && key in user["name"].fields
              && user["name"].fields[key].Text?
    ensures r.Ok? && r.value.Some? ==> r.value.value == user["name"].fields[key].s
    ensures r.Err? <==>
              ("name" in user && !user["name"].Object?)
              || ("name" in user && user["name"].Object? && key in user["name"].fields
                  && (user["name"].fields[key].Object? || user["name"].fields[key].Array?))
  {
    var name := if "name" in user then Some(user["name"]) else None;
    match Child(name, key)
    case Err(e) => Err(e)
    case Ok(child) => AsString(child)
  }

  /** The profile shapes the constructor reads without throwing: `id` convertible,
      `name` absent or an object whose `givenName` and `familyName` are convertible. */
  predicate Readable(user: map<string, Json>) {
    && Convertible(user, "id")
    && ("name" in user ==> user["name"].Object?)
    && ("name" in user ==> Convertible(user["name"].fields, "givenName"))
    && ("name" in user ==> Convertible(user["name"].fields, "familyName"))
  }

  /** The constructor. A null `userJson` makes the first indexer throw. */
  function New(accessToken: Option<string>, expires: Option<string>, refreshToken: Option<string>,
               email: Option<string>, userJson: Option<map<string, Json>>): (r: Result<Context, Fault>)
    ensures userJson.None? ==> r == Err(NullReference)
    ensures r.Ok? <==> userJson.Some? && Readable(userJson.value)
    ensures r.Ok? ==>
              && r.value.accessToken == accessToken
              && r.value.refreshToken == refreshToken
              && r.value.email == email
              && r.value.scope.None?
    ensures r.Ok? ==> (r.value.expiresIn.Some? <==> Int32Parse.Parse(expires).Some?)
    ensures r.Ok? && r.value.expiresIn.Some? ==>
              && Int32Parse.InInt32(r.value.expiresIn.value)
              && r.value.expiresIn == Int32Parse.Parse(expires)
    ensures r.Ok? ==>
              var user := userJson.value;
              && r.value.userId == TextOf(user, "id")
              && r.value.givenName == (if "name" in user then TextOf(user["name"].fields, "givenName") else None)
              && r.value.surname == (if "name" in user then TextOf(user["name"].fields, "familyName") else None)
  {
    var expiresIn := Int32Parse.Parse(expires);
    match userJson
    case None => Err(NullReference)
    case Some(user) =>
      match StringField(user, "id")
      case Err(e) => Err(e)
      case Ok(userId) =>
        match NameField(user, "givenName")
        case Err(e) => Err(e)
        case Ok(givenName) =>
          match NameField(user, "familyName")
          case Err(e) => Err(e)
          case Ok(surname) =>
            Ok(Context(accessToken, refreshToken, expiresIn, email, userId, givenName, surname, None))
  }
}

=== FILE: base64.dfy ===
/** `Convert.ToBase64String`: the padded Base64 encoding of section 4 of RFC 4648
    (standard alphabet, `=` padding, no line breaks), and a strict decoder that
    is its inverse in both directions. */
module Base64 {
  import opened Wrappers
  import opened Utf8

  type sextet = v: int | 0 <= v < 64

  /** The value-to-character table of section 4 of RFC 4648. */
  function SextetChar(v: sextet): (c: char)
    ensures c != '='
  {
    if v < 26 then ('A' as int + v) as char
    else if v < 52 then ('a' as int + (v - 26)) as char
    else if v < 62 then ('0' as int + (v - 52)) as char
    else if v == 62 then '+'
    else '/'
  }

  /** The inverse table; `None` for characters outside the alphabet (including `=`). */
  function SextetValue(c: char): (r: Option<sextet>)
    ensures r.Some? ==> SextetChar(r.value) == c
  {
    if 'A' <= c <= 'Z' then Some(c as int - 'A' as int)
    else if 'a' <= c <= 'z' then Some(c as int - 'a' as int + 26)
    else if '0' <= c <= '9' then Some(c as int - '0' as int + 52)
    else if c == '+' then Some(62)
    else if c == '/' then Some(63)
    else None
  }

  lemma SextetRoundTrip(v: sextet)
    ensures SextetValue(SextetChar(v)) == Some(v)
  {
  }

  predicate InAlphabet(c: char) {
    SextetValue(c).Some?
  }

  /** Three bytes become four characters. */
  function EncodeBlock(b0: byte, b1: byte, b2: byte): string {
    [SextetChar(b0 / 4), SextetChar((b0 % 4) * 16 + b1 / 16),
     SextetChar((b1 % 16) * 4 + b2 / 64), SextetChar(b2 % 64)]
  }

  /** A final lone byte becomes two characters and `==`. */
  function EncodeOne(b0: byte): string {
    [SextetChar(b0 / 4), SextetChar((b0 % 4) * 16), '=', '=']
  }

  /** A final pair of bytes becomes three characters and `=`. */
  function EncodeTwo(b0: byte, b1: byte): string {
    [SextetChar(b0 / 4), SextetChar((b0 % 4) * 16 + b1 / 16), SextetChar((b1 % 16) * 4), '=']
  }

  /** The padded encoding: four characters for every started group of three bytes,
      padding only in the last group, every other character from the alphabet. */
  function Encode(bs: seq<byte>): (r: string)
    ensures |r| == 4 * ((|bs| + 2) / 3)
    ensures forall i :: 0 <= i < |r| - 4 ==> InAlphabet(r[i])
    decreases |bs|
  {
    if |bs| == 0 then []
    else if |bs| == 1 then EncodeOne(bs[0])
    else if |bs| == 2 then EncodeTwo(bs[0], bs[1])
    else
      var rest := Encode(bs[3..]);
      var r := EncodeBlock(bs[0], bs[1], bs[2]) + rest;
      assert forall i :: 4 <= i < |r| - 4 ==> r[i] == rest[i - 4];
      r
  }

  /** Decodes one group of four characters into one to three bytes.
      Non-zero bits left over by padding are refused, so that every accepted
      text is the encoding of what it decodes to. */
  function DecodeGroup(s: string): (r: Option<seq<byte>>)
    requires |s| == 4
    ensures r.Some? ==> 1 <= |r.value| <= 3
  {
    var v0 := SextetValue(s[0]);
    var v1 := SextetValue(s[1]);
    var v2 := SextetValue(s[2]);
    var v3 := SextetValue(s[3]);
    if v0.None? || v1.None? then None
    else if s[2] == '=' && s[3] == '=' then
      if v1.value % 16 == 0 then Some([v0.value * 4 + v1.value / 16]) else None
    else if v2.None? then None
    else if s[3] == '=' then
      if v2.value % 4 == 0 then
        Some([v0.value * 4 + v1.value / 16, (v1.value % 16) * 16 + v2.value / 4])
      else None
    else if v3.None? then None
    else
      Some([v0.value * 4 + v1.value / 16, (v1.value % 16) * 16 + v2.value / 4,
            (v2.value % 4) * 64 + v3.value])
  }

  /** Strict decoding: whole groups only, padding only in the final group. */
  function Decode(s: string): (r: Option<seq<byte>>)
    decreases |s|
  {
    if |s| == 0 then Some([])
    else if |s| < 4 then None
    else
      match DecodeGroup(s[..4])
      case None => None
      case Some(g) =>
        if |s| == 4 then Some(g)
        else if |g| < 3 then None
        else
          match Decode(s[4..])
          case None => None
          case Some(rest) => Some(g + rest)
  }

  lemma DecodeEncodeBlock(b0: byte, b1: byte, b2: byte)
    ensures DecodeGroup(EncodeBlock(b0, b1, b2)) == Some([b0, b1, b2])
  {
    SextetRoundTrip(b0 / 4);
    SextetRoundTrip((b0 % 4) * 16 + b1 / 16);
    SextetRoundTrip((b1 % 16) * 4 + b2 / 64);
    SextetRoundTrip(b2 % 64);
  }

  lemma DecodeEncodeOne(b0: byte)
    ensures DecodeGroup(EncodeOne(b0)) == Some([b0])
  {
    SextetRoundTrip(b0 / 4);
    SextetRoundTrip((b0 % 4) * 16);
  }

  lemma DecodeEncodeTwo(b0: byte, b1: byte)
    ensures DecodeGroup(EncodeTwo(b0, b1)) == Some([b0, b1])
  {
    SextetRoundTrip(b0 / 4);
    SextetRoundTrip((b0 % 4) * 16 + b1 / 16);
    SextetRoundTrip((b1 % 16) * 4);
  }

  /** A text of one group decodes as that group. */
  lemma DecodeSingle(s: string)
    requires |s| == 4
    ensures Decode(s) == DecodeGroup(s)
  {
    assert s[..4] == s;
  }

  lemma DecodeEncodeOneText(b0: byte)
    ensures Decode(EncodeOne(b0)) == Some([b0])
  {
    DecodeEncodeOne(b0);
    DecodeSingle(EncodeOne(b0));
  }

  lemma DecodeEncodeTwoText(b0: byte, b1: byte)
    ensures Decode(EncodeTwo(b0, b1)) == Some([b0, b1])
  {
    DecodeEncodeTwo(b0, b1);
    DecodeSingle(EncodeTwo(b0, b1));
  }

  /** The final, padded group decodes to the last one or two bytes. */
  lemma DecodeEncodeShort(bs: seq<byte>)
    requires 1 <= |bs| <= 2
    ensures Decode(Encode(bs)) == Some(bs)
  {
    if |bs| == 1 {
      assert Encode(bs) == EncodeOne(bs[0]);
      DecodeEncodeOneText(bs[0]);
      assert bs == [bs[0]];
    } else {
      assert Encode(bs) == EncodeTwo(bs[0], bs[1]);
      DecodeEncodeTwoText(bs[0], bs[1]);
      assert bs == [bs[0], bs[1]];
    }
  }

  /** Decoding a full group followed by more text. */
  lemma DecodeCons(s: string)
    requires |s| > 4 && DecodeGroup(s[..4]).Some? && |DecodeGroup(s[..4]).value| == 3
    requires Decode(s[4..]).Some?
    ensures Decode(s) == Some(DecodeGroup(s[..4]).value + Decode(s[4..]).value)
  {
  }

  /** Encoding more than two bytes starts with a full block. */
  lemma EncodeLong(bs: seq<byte>)
    requires |bs| >= 3
    ensures Encode(bs) == EncodeBlock(bs[0], bs[1], bs[2]) + Encode(bs[3..])
  {
  }

  /** A full block in front of a text that decodes. */
  lemma DecodeBlockThen(b0: byte, b1: byte, b2: byte, rest: string, tail: seq<byte>)
    requires Decode(rest) == Some(tail)
    ensures Decode(EncodeBlock(b0, b1, b2) + rest) == Some([b0, b1, b2] + tail)
  {
    var block := EncodeBlock(b0, b1, b2);
    var e := block + rest;
    DecodeEncodeBlock(b0, b1, b2);
    assert e[..4] == block && e[4..] == rest;
    if rest == [] {
      DecodeSingle(e);
      assert [b0, b1, b2] + tail == [b0, b1, b2];
    } else {
      DecodeCons(e);
    }
  }

  /** One inductive step of the round trip: a full block in front of a tail that
      already round-trips. */
  lemma DecodeEncodeStep(bs: seq<byte>)
    requires |bs| >= 3
    requires Decode(Encode(bs[3..])) == Some(bs[3..])
    ensures Decode(Encode(bs)) == Some(bs)
  {
    EncodeLong(bs);
    DecodeBlockThen(bs[0], bs[1], bs[2], Encode(bs[3..]), bs[3..]);
    FirstThree(bs);
  }

  /** A sequence is its first three elements followed by the rest; stated apart so
      that the step above does not search for it. */
  lemma FirstThree(bs: seq<byte>)
    requires |bs| >= 3
    ensures [bs[0], bs[1], bs[2]] + bs[3..] == bs
  {
  }

  /** Round trip: decoding an encoding gives back the bytes. */
  lemma {:induction false} DecodeEncode(bs: seq<byte>)
    ensures Decode(Encode(bs)) == Some(bs)
    decreases |bs|
  {
    if 1 <= |bs| <= 2 {
      DecodeEncodeShort(bs);
    } else if |bs| >= 3 {
      DecodeEncode(bs[3..]);
      DecodeEncodeStep(bs);
    }
  }

  /** Re-packing the bytes of a group gives back its sextets. */
  lemma Repack(v0: sextet, v1: sextet, v2: sextet, v3: sextet)
    ensures (v0 * 4 + v1 / 16) / 4 == v0
    ensures ((v0 * 4 + v1 / 16) % 4) * 16 + ((v1 % 16) * 16 + v2 / 4) / 16 == v1
    ensures (((v1 % 16) * 16 + v2 / 4) % 16) * 4 + ((v2 % 4) * 64 + v3) / 64 == v2
    ensures ((v2 % 4) * 64 + v3) % 64 == v3
  {
  }

  lemma EncodeDecodeOne(s: string)
    requires |s| == 4 && DecodeGroup(s).Some? && s[2] == '=' && s[3] == '='
    ensures |DecodeGroup(s).value| == 1 && EncodeOne(DecodeGroup(s).value[0]) == s
  {
    Repack(SextetValue(s[0]).value, SextetValue(s[1]).value, 0, 0);
  }

  lemma EncodeDecodeTwo(s: string)
    requires |s| == 4 && DecodeGroup(s).Some? && s[2] != '=' && s[3] == '='
    ensures |DecodeGroup(s).value| == 2
    ensures EncodeTwo(DecodeGroup(s).value[0], DecodeGroup(s).value[1]) == s
  {
    Repack(SextetValue(s[0]).value, SextetValue(s[1]).value, SextetValue(s[2]).value, 0);
  }

  lemma EncodeDecodeThree(s: string)
    requires |s| == 4 && DecodeGroup(s).Some? && s[2] != '=' && s[3] != '='
    ensures |DecodeGroup(s).value| == 3
    ensures EncodeBlock(DecodeGroup(s).value[0], DecodeGroup(s).value[1], DecodeGroup(s).value[2]) == s
  {
    Repack(SextetValue(s[0]).value, SextetValue(s[1]).value, SextetValue(s[2]).value,
           SextetValue(s[3]).value);
  }

  /** A group the decoder accepts is exactly the encoding of its bytes. */
  lemma EncodeDecodeGroup(s: string)
    requires |s| == 4 && DecodeGroup(s).Some?
    ensures var g := DecodeGroup(s).value;
            (|g| == 1 ==> EncodeOne(g[0]) == s)
            && (|g| == 2 ==> EncodeTwo(g[0], g[1]) == s)
            && (|g| == 3 ==> EncodeBlock(g[0], g[1], g[2]) == s)
  {
    if s[2] == '=' && s[3] == '=' {
      EncodeDecodeOne(s);
    } else if s[3] == '=' {
      assert s[2] != '=' by { assert SextetValue(s[2]).Some?; }
      EncodeDecodeTwo(s);
    } else {
      assert s[2] != '=' by { assert SextetValue(s[2]).Some?; }
      EncodeDecodeThree(s);
    }
  }

  /** The other direction: every text the decoder accepts is the encoding of its result,
      so the encoding is a bijection onto the decoder's domain. */
  lemma {:induction false} EncodeDecode(s: string)
    requires Decode(s).Some?
    ensures Encode(Decode(s).value) == s
    decreases |s|
  {
    if |s| > 0 {
      var g := DecodeGroup(s[..4]).value;
      EncodeDecodeGroup(s[..4]);
      if |s| == 4 {
        assert s[..4] == s;
      } else {
        var rest := Decode(s[4..]).value;
        EncodeDecode(s[4..]);
        var bs := g + rest;
        assert bs[3..] == rest;
        assert s == s[..4] + s[4..];
      }
    }
  }
}

=== FILE: callback.dfy ===
/** `AuthenticateCoreAsync`: the callback from the authorization server, from the
    query it carries to the ticket it yields. The state protector, the correlation
    cookie and the two back-channel calls are inputs. */
module Callback {
  import opened Wrappers
  import opened Json
  import opened Claims
  import opened Protocol
  import opened Credentials
  import AuthenticatedContext
  import Text

  const TokenEndpoint: string := "https://authentication.logmeininc.com/oauth/token"
  const UserInfoEndpoint: string := "https://api.getgo.com/identity/v1/Users/me"

  /** The form-encoded POST of section 4.1.3 of RFC 6749. */
  datatype TokenRequest = TokenRequest(endpoint: string, authorization: AuthenticationHeader,
                                       form: seq<(string, Option<string>)>)

  /** The GET of the user's profile, with the access token as Bearer credential. */
  datatype ProfileRequest = ProfileRequest(endpoint: string, authorization: AuthenticationHeader)

  /** The token endpoint and the profile endpoint, as functions from request to outcome. */
  datatype Backchannel = Backchannel(token: TokenRequest -> HttpOutcome,
                                     profile: ProfileRequest -> HttpOutcome)

  /** The four values the handler reads from the token response. */
  datatype TokenFields = TokenFields(accessToken: Option<string>, expires: Option<string>,
                                     refreshToken: Option<string>, email: Option<string>)

  /** What one callback produced: the ticket (`None` is a null ticket), the
      back-channel requests it issued, and the context the `Authenticated` hook saw. */
  datatype Outcome = Outcome(ticket: Option<Ticket>, tokenRequest: Option<TokenRequest>,
                             profileRequest: Option<ProfileRequest>,
                             context: Option<AuthenticatedContext.Context>)

  /** The token request for a given authorization code: exactly `grant_type`, `code`
      and `redirect_uri`, in that order, authenticated with the client's Basic
      credential. */
  function MakeTokenRequest(options: Options, request: Request, code: Option<string>): (r: TokenRequest)
    ensures r.endpoint == TokenEndpoint
    ensures r.form == [("grant_type", Some("authorization_code")),
                       ("code", code),
                       ("redirect_uri", Some(BaseUri(request) + options.callbackPath))]
    ensures r.authorization == BasicAuthorization(options.clientId, options.clientSecret)
  {
    TokenRequest(TokenEndpoint, BasicAuthorization(options.clientId, options.clientSecret),
                 [("grant_type", Some("authorization_code")),
                  ("code", code),
                  ("redirect_uri", Some(CallbackUri(request, options)))])
  }

  /** The token endpoint reads the client id and secret back from the token request's
      Basic credential, provided the id has no colon. */
  lemma TokenRequestCredentials(options: Options, request: Request, code: Option<string>)
    requires ':' !in options.clientId
    ensures var r := MakeTokenRequest(options, request, code);
            && r.authorization.scheme == "Basic"
            && ReadBasic(r.authorization.parameter.value) == Some((options.clientId, options.clientSecret))
  {
    ReadBasicAuthorization(options.clientId, options.clientSecret);
  }

  /** The token body fields the handler reads can all be converted to strings. */
  predicate TokenBodyReadable(fields: map<string, Json>) {
    && Convertible(fields, "access_token")
    && Convertible(fields, "expires_in")
    && Convertible(fields, "refresh_token")
    && Convertible(fields, "principal")
  }

  /** `EnsureSuccessStatusCode`, `DeserializeObject<JObject>` and the four
      `Value<string>` reads: fails unless the status is a success and the body a
      JSON object whose four fields convert. */
  function ReadTokenResponse(outcome: HttpOutcome): (r: Result<TokenFields, Fault>)
    ensures outcome.Response? && !IsSuccessStatus(outcome.status) ==> r == Err(HttpRequest(outcome.status))
    ensures r.Ok? <==> && outcome.Response? && IsSuccessStatus(outcome.status)
                       && outcome.body.Some? && outcome.body.value.Object?
                       && TokenBodyReadable(outcome.body.value.fields)
    ensures r.Ok? ==> var fields := outcome.body.value.fields;
                      r.value == TokenFields(TextOf(fields, "access_token"), TextOf(fields, "expires_in"),
                                             TextOf(fields, "refresh_token"), TextOf(fields, "principal"))
  {
    match outcome
    case TransportFailure => Err(Transport)
    case Response(status, body) =>
      if !IsSuccessStatus(status) then Err(HttpRequest(status))
      else match body
        case None => Err(JsonReader)
        case Some(Null) => Err(NullReference)
        case Some(Text(_)) => Err(InvalidCast)
        case Some(Array(_)) => Err(InvalidCast)
        case Some(Object(fields)) =>
          match StringField(fields, "access_token")
          case Err(e) => Err(e)
          case Ok(accessToken) =>
            match StringField(fields, "expires_in")
            case Err(e) => Err(e)
            case Ok(expires) =>
              match StringField(fields, "refresh_token")
              case Err(e) => Err(e)
              case Ok(refreshToken) =>
                match StringField(fields, "principal")
                case Err(e) => Err(e)
                case Ok(email) => Ok(TokenFields(accessToken, expires, refreshToken, email))
  }

  /** The profile call: a transport failure throws; a non-success status leaves the
      user JSON null; a success must carry a JSON object (`JObject.Parse`). */
  function ReadProfileResponse(outcome: HttpOutcome): (r: Result<Option<map<string, Json>>, Fault>)
    ensures outcome.TransportFailure? ==> r.Err?
    ensures outcome.Response? && !IsSuccessStatus(outcome.status) ==> r == Ok(None)
    ensures outcome.Response? && IsSuccessStatus(outcome.status) ==>
              (r.Ok? <==> outcome.body.Some? && outcome.body.value.Object?)
    ensures r.Ok? && r.value.Some? ==> outcome.body == Some(Object(r.value.value))
    ensures outcome.Response? && IsSuccessStatus(outcome.status) && outcome.body.Some? && outcome.body.value.Object? ==>
              r == Ok(Some(outcome.body.value.fields))
  {
    match outcome
    case TransportFailure => Err(Transport)
    case Response(status, body) =>
      if !IsSuccessStatus(status) then Ok(None)
      else match body
        case Some(Object(fields)) => Ok(Some(fields))
        case _ => Err(JsonReader)
  }

  /** The profile request made with the access token the token endpoint returned. */
  function MakeProfileRequest(accessToken: Option<string>): ProfileRequest {
    ProfileRequest(UserInfoEndpoint, AuthenticationHeader("Bearer", accessToken))
  }

  /** The correlation check passes: the request carries a correlation cookie that is
      not blank, and the decoded properties hold the same value (compared ordinally). */
  predicate CorrelationHolds(properties: Properties, cookie: Option<string>) {
    !Text.IsNullOrWhiteSpace(cookie) && properties.correlationId == cookie
  }

  /** `ValidateCorrelationId`, inherited from the OWIN base handler: the verdict, and
      the properties as the check leaves them. A missing or blank cookie fails before
      anything is touched; otherwise the properties' correlation entry is removed
      (when there is one) and the check passes exactly when it equalled the cookie. */
  function ValidateCorrelationId(properties: Properties, cookie: Option<string>): (r: (bool, Properties))
    ensures r.0 <==> CorrelationHolds(properties, cookie)
    ensures r.1.correlationId == if Text.IsNullOrWhiteSpace(cookie) then properties.correlationId else None
    ensures r.1.redirectUri == properties.redirectUri && r.1.items == properties.items
  {
    if Text.IsNullOrWhiteSpace(cookie) then (false, properties)
    else match properties.correlationId
      case None => (false, properties)
      case Some(entry) => (entry == cookie.value, properties.(correlationId := None))
  }

  /** The callback. Properties are decoded from the single `state` value; a null
      result ends it with no ticket. From then on every failure yields a ticket with
      no identity and the decoded properties: a single `error` value (section 4.1.2.1
      of RFC 6749), a failed correlation check (section 10.12), a failed token
      request (section 4.1.3) and any exception after it, including the one a
      non-success profile response leads to. Once the correlation check has run, the
      ticket carries the properties as the check left them. */
  function AuthenticateCore(options: Options, request: Request, unprotect: Option<string> -> Option<Properties>,
                            correlationCookie: Option<string>, backchannel: Backchannel): (r: Outcome)
    ensures var decoded := unprotect(SingleValue(request.query, "state"));
            && (r.ticket.None? <==> decoded.None?)
            && (r.ticket.Some? ==>
                  r.ticket.value.properties
                  == if SingleValue(request.query, "error").Some? then decoded.value
                     else ValidateCorrelationId(decoded.value, correlationCookie).1)
    ensures var decoded := unprotect(SingleValue(request.query, "state"));
            r.tokenRequest.Some? <==>
              && decoded.Some?
              && SingleValue(request.query, "error").None?
              && CorrelationHolds(decoded.value, correlationCookie)
    ensures r.tokenRequest.Some? ==>
              r.tokenRequest.value == MakeTokenRequest(options, request, SingleValue(request.query, "code"))
    ensures r.profileRequest.Some? <==>
              r.tokenRequest.Some? && ReadTokenResponse(backchannel.token(r.tokenRequest.value)).Ok?
    ensures r.profileRequest.Some? ==>
              r.profileRequest.value
              == MakeProfileRequest(ReadTokenResponse(backchannel.token(r.tokenRequest.value)).value.accessToken)
    ensures (r.ticket.Some? && r.ticket.value.identity.Some?) <==>
              && r.profileRequest.Some?
              && var user := ReadProfileResponse(backchannel.profile(r.profileRequest.value));
                 user.Ok? && user.value.Some? && AuthenticatedContext.Readable(user.value.value)
    ensures r.context.Some? <==> r.ticket.Some? && r.ticket.value.identity.Some?
    ensures r.context.Some? ==>
              var fields := ReadTokenResponse(backchannel.token(r.tokenRequest.value)).value;
              var user := ReadProfileResponse(backchannel.profile(r.profileRequest.value)).value;
              && Some(r.context.value)
                 == AuthenticatedContext.New(fields.accessToken, fields.expires, fields.refreshToken,
                                             fields.email, user).ToOption()
              && r.ticket.value.identity == Some(MapIdentity(r.context.value, options.authenticationType))
  {
    var query := request.query;
    var decoded := unprotect(SingleValue(query, "state"));
    if decoded.None? then Outcome(None, None, None, None)
    else
      var properties := decoded.value;
      var failed := Outcome(Some(Ticket(None, properties)), None, None, None);
      if SingleValue(query, "error").Some? then failed
      else
        var code := SingleValue(query, "code");
        var (valid, checked) := ValidateCorrelationId(properties, correlationCookie);
        var failed := Outcome(Some(Ticket(None, checked)), None, None, None);
        if !valid then failed
        else
          var tokenRequest := MakeTokenRequest(options, request, code);
          var afterToken := failed.(tokenRequest := Some(tokenRequest));
          match ReadTokenResponse(backchannel.token(tokenRequest))
          case Err(_) => afterToken
          case Ok(fields) =>
            var profileRequest := MakeProfileRequest(fields.accessToken);
            var afterProfile := afterToken.(profileRequest := Some(profileRequest));
            match ReadProfileResponse(backchannel.profile(profileRequest))
            case Err(_) => afterProfile
            case Ok(user) =>
              match AuthenticatedContext.New(fields.accessToken, fields.expires, fields.refreshToken,
                                             fields.email, user)
              case Err(_) => afterProfile
              case Ok(context) =>
                var identity := MapIdentity(context, options.authenticationType);
                Outcome(Some(Ticket(Some(identity), checked)), Some(tokenRequest), Some(profileRequest),
                        Some(context))
  }

  /** A single `error` value ends the callback with the decoded properties and no
      identity, before the correlation check and before any back-channel call. */
  lemma ErrorShortCircuits(options: Options, request: Request, unprotect: Option<string> -> Option<Properties>,
                           correlationCookie: Option<string>, backchannel: Backchannel)
    requires unprotect(SingleValue(request.query, "state")).Some?
    requires SingleValue(request.query, "error").Some?
    ensures AuthenticateCore(options, request, unprotect, correlationCookie, backchannel)
            == Outcome(Some(Ticket(None, unprotect(SingleValue(request.query, "state")).value)), None, None, None)
  {
  }

  /** A callback whose correlation cookie is missing, blank or different from the
      value in the decoded state (a forged or replayed callback, section 10.12 of
      RFC 6749) ends the same way, before any back-channel call; when the cookie was
      there, the ticket's properties no longer carry a correlation value. */
  lemma CorrelationFailureShortCircuits(options: Options, request: Request,
                                        unprotect: Option<string> -> Option<Properties>,
                                        correlationCookie: Option<string>, backchannel: Backchannel)
    requires unprotect(SingleValue(request.query, "state")).Some?
    requires SingleValue(request.query, "error").None?
    requires Text.IsNullOrWhiteSpace(correlationCookie)
             || unprotect(SingleValue(request.query, "state")).value.correlationId != correlationCookie
    ensures var decoded := unprotect(SingleValue(request.query, "state")).value;
            var after := if Text.IsNullOrWhiteSpace(correlationCookie) then decoded
                         else decoded.(correlationId := None);
            AuthenticateCore(options, request, unprotect, correlationCookie, backchannel)
            == Outcome(Some(Ticket(None, after)), None, None, None)
  {
  }

  /** With a state decoder that maps null to null, a query with no `state` or with
      several yields no ticket at all. */
  lemma StateMustBeSingle(options: Options, request: Request, unprotect: Option<string> -> Option<Properties>,
                          correlationCookie: Option<string>, backchannel: Backchannel)
    requires unprotect(None) == None
    requires |Values(request.query, "state")| != 1
    ensures AuthenticateCore(options, request, unprotect, correlationCookie, backchannel).ticket == None
  {
  }

  /** A profile call that answers with a non-success status leaves the user JSON
      null, the context cannot be built, and the handshake fails even though the
      token exchange succeeded. */
  lemma ProfileFailureFailsHandshake(options: Options, request: Request,
                                     unprotect: Option<string> -> Option<Properties>,
                                     correlationCookie: Option<string>, backchannel: Backchannel)
    requires unprotect(SingleValue(request.query, "state")).Some?
    requires SingleValue(request.query, "error").None?
    requires CorrelationHolds(unprotect(SingleValue(request.query, "state")).value, correlationCookie)
    ensures var fields := ReadTokenResponse(backchannel.token(
              MakeTokenRequest(options, request, SingleValue(request.query, "code"))));
            var r := AuthenticateCore(options, request, unprotect, correlationCookie, backchannel);
            fields.Ok? ==>
              var profile := backchannel.profile(MakeProfileRequest(fields.value.accessToken));
              profile.Response? && !IsSuccessStatus(profile.status) ==>
                && r.ticket
                   == Some(Ticket(None, unprotect(SingleValue(request.query, "state")).value.(correlationId := None)))
                && r.profileRequest.Some?
  {
  }

  /** The token response's `access_token` is not required: without one the profile
      request carries a Bearer header with no credential, and if the profile endpoint
      still answers, the handshake succeeds with no access token in the context. */
  lemma MissingAccessTokenNotChecked(options: Options, request: Request,
                                     unprotect: Option<string> -> Option<Properties>,
                                     correlationCookie: Option<string>, backchannel: Backchannel,
                                     user: map<string, Json>)
    requires unprotect(SingleValue(request.query, "state")).Some?
    requires SingleValue(request.query, "error").None?
    requires CorrelationHolds(unprotect(SingleValue(request.query, "state")).value, correlationCookie)
    requires backchannel.token(MakeTokenRequest(options, request, SingleValue(request.query, "code")))
             == Response(200, Some(Object(map[])))
    requires backchannel.profile(MakeProfileRequest(None)) == Response(200, Some(Object(user)))
    requires AuthenticatedContext.Readable(user)
    ensures var r := AuthenticateCore(options, request, unprotect, correlationCookie, backchannel);
            && r.profileRequest == Some(ProfileRequest(UserInfoEndpoint, AuthenticationHeader("Bearer", None)))
            && r.ticket.Some? && r.ticket.value.identity.Some?
            && r.context.Some? && r.context.value.accessToken.None?
  {
  }
}

=== FILE: challenge.dfy ===
/** `ApplyResponseChallengeAsync`: turning a 401 with a matching challenge into a
    redirect to the authorization endpoint (section 4.1.1 of RFC 6749). */
module Challenge {
  import opened Wrappers
  import opened Text
  import opened Protocol
  import opened QueryString

  /** `https://authentication.logmeininc.com/oauth/authorize`, written in pieces the
      verifier can look inside. */
  const AuthorizeEndpoint: string := "https://" + "authentication" + ".logmeininc" + ".com" + "/oauth" + "/authorize"

  /** What the challenge did: the `Location` it redirected to (`Response.Redirect`,
      which also sets status 302) and the properties it
      protected into `state`; both `None` when it left the response alone. */
  datatype ChallengeOutcome = ChallengeOutcome(redirect: Option<string>, properties: Option<Properties>)

  /** `Request.Scheme + "://" + Host + PathBase + Path + QueryString`. */
  function CurrentUri(request: Request): string {
    BaseUri(request) + request.path + request.queryString
  }

  /** The challenge's properties as they are protected: the redirect target falls
      back to the current uri only when it is null or empty, the correlation value is
      the fresh one, and nothing else changes. */
  function PrepareProperties(properties: Properties, currentUri: string, correlationId: string): (r: Properties)
    ensures !IsNullOrEmpty(properties.redirectUri) ==> r.redirectUri == properties.redirectUri
    ensures IsNullOrEmpty(properties.redirectUri) ==> r.redirectUri == Some(currentUri)
    ensures r.correlationId == Some(correlationId)
    ensures r.items == properties.items
  {
    var withTarget := if IsNullOrEmpty(properties.redirectUri) then properties.(redirectUri := Some(currentUri))
                      else properties;
    withTarget.(correlationId := Some(correlationId))
  }

  /** The authorization request's parameters, in the order they are added. */
  function AuthorizationParameters(options: Options, request: Request, state: string): seq<(string, string)> {
    [("response_type", "code"),
     ("client_id", options.clientId),
     ("redirect_uri", CallbackUri(request, options)),
     ("state", state)]
  }

  lemma EndpointHasNoQuery()
    ensures '?' !in AuthorizeEndpoint && '#' !in AuthorizeEndpoint
  {
  }

  /** The authorization request: the endpoint, and a query carrying the parameters. */
  function AuthorizationUri(options: Options, request: Request, state: string): (r: string)
    ensures AuthorizeEndpoint + "?" <= r
    ensures ReadQuery(r) == Some(AuthorizationParameters(options, request, state))
  {
    var parameters := AuthorizationParameters(options, request, state);
    EndpointHasNoQuery();
    AddQueryStringShape(AuthorizeEndpoint, parameters);
    ReadAddQueryString(AuthorizeEndpoint, parameters);
    AddQueryString(AuthorizeEndpoint, parameters)
  }

  /** The challenge. Nothing happens unless the status is 401 and a challenge for this
      middleware was issued; then the redirect goes to the authorization endpoint, and
      whoever reads its query finds exactly `response_type=code`, the client id, the
      callback uri and the protected properties as `state`. */
  function ApplyResponseChallenge(options: Options, request: Request, statusCode: int,
                                  challenge: Option<Properties>, correlationId: string,
                                  protect: Properties -> string): (r: ChallengeOutcome)
    ensures r.redirect.Some? <==> statusCode == 401 && challenge.Some?
    ensures r.properties.Some? <==> r.redirect.Some?
    ensures r.properties.Some? ==>
              r.properties.value == PrepareProperties(challenge.value, CurrentUri(request), correlationId)
    ensures r.redirect.Some? ==>
              && AuthorizeEndpoint + "?" <= r.redirect.value
              && ReadQuery(r.redirect.value)
                 == Some([("response_type", "code"),
                          ("client_id", options.clientId),
                          ("redirect_uri", BaseUri(request) + options.callbackPath),
                          ("state", protect(r.properties.value))])
  {
    if statusCode != 401 || challenge.None? then ChallengeOutcome(None, None)
    else
      var properties := PrepareProperties(challenge.value, CurrentUri(request), correlationId);
      ChallengeOutcome(Some(AuthorizationUri(options, request, protect(properties))), Some(properties))
  }
}

=== FILE: claims.dfy ===
/** `ClaimsIdentity` and the provider's mapping from the authenticated context to
    claims. */
module Claims {
  import opened Wrappers
  import opened Text
  import AuthenticatedContext

  const XmlSchemaString: string := "http://www.w3.org/2001/XMLSchema#string"

  /** The claim types the provider uses (`ClaimTypes.*` and the `ClaimsIdentity`
      defaults); `Uri` gives each one's identifying URI. */
  datatype ClaimType = NameIdentifier | Name | Email | GivenName | Surname | Role

  function Uri(t: ClaimType): string {
    match t
    case NameIdentifier => "http://schemas.xmlsoap.org/ws/2005/05/identity/claims/nameidentifier"
    case Name => "http://schemas.xmlsoap.org/ws/2005/05/identity/claims/name"
    case Email => "http://schemas.xmlsoap.org/ws/2005/05/identity/claims/emailaddress"
    case GivenName => "http://schemas.xmlsoap.org/ws/2005/05/identity/claims/givenname"
    case Surname => "http://schemas.xmlsoap.org/ws/2005/05/identity/claims/surname"
    case Role => "http://schemas.microsoft.com/ws/2008/06/identity/claims/role"
  }

  datatype Claim = Claim(claimType: ClaimType, value: string, valueType: string, issuer: string)

  /** `ClaimsIdentity.DefaultIssuer`. */
  const DefaultIssuer: string := "LOCAL AUTHORITY"

  /** The issuer a new `Claim` records: the constructor puts `DefaultIssuer` in place
      of a null or empty issuer and keeps any other as given. */
  function RecordedIssuer(issuer: string): (r: string)
    ensures r != []
    ensures issuer != [] ==> r == issuer
  {
    if issuer == [] then DefaultIssuer else issuer
  }

  /** `new Claim(type, value, valueType, issuer)`. */
  function NewClaim(claimType: ClaimType, value: string, valueType: string, issuer: string): Claim {
    Claim(claimType, value, valueType, RecordedIssuer(issuer))
  }

  /** A claims identity: its authentication type (the label), the claim types that
      serve as name and role, and the claims in the order they were added. */
  datatype Identity = Identity(authenticationType: string, nameClaimType: ClaimType,
                               roleClaimType: ClaimType, claims: seq<Claim>)

  /** Position of a claim type in the order the provider adds them. */
  function Rank(t: ClaimType): nat {
    match t
    case NameIdentifier => 0
    case Name => 1
    case Email => 2
    case GivenName => 3
    case Surname => 4
    case Role => 5
  }

  /** The value of the first claim of the given type, if any. */
  function Find(claims: seq<Claim>, claimType: ClaimType): Option<string> {
    if claims == [] then None
    else if claims[0].claimType == claimType then Some(claims[0].value)
    else Find(claims[1..], claimType)
  }

  /** A claim of the given type when its source is neither null nor empty. */
  function ClaimIf(claimType: ClaimType, source: Option<string>, issuer: string): Option<Claim> {
    if IsNullOrEmpty(source) then None else Some(NewClaim(claimType, source.value, XmlSchemaString, issuer))
  }

  /** Every claim is typed as a string and records the given issuer. */
  predicate IssuedBy(claims: seq<Claim>, authenticationType: string) {
    forall i :: 0 <= i < |claims| ==>
      claims[i].valueType == XmlSchemaString && claims[i].issuer == authenticationType
  }

  /** Claim types occur at most once and in the provider's order. */
  predicate Ordered(claims: seq<Claim>) {
    forall i, j :: 0 <= i < j < |claims| ==> Rank(claims[i].claimType) < Rank(claims[j].claimType)
  }

  /** The claims of the candidates that are present, in order: one `AddClaim` per
      candidate whose condition held. */
  function Present(candidates: seq<Option<Claim>>): (r: seq<Claim>)
    ensures |r| <= |candidates|
  {
    if candidates == [] then []
    else
      var rest := Present(candidates[1..]);
      if candidates[0].Some? then [candidates[0].value] + rest else rest
  }

  /** Candidate `i` can only be a claim of the type ranked `k + i`. */
  predicate RankedFrom(candidates: seq<Option<Claim>>, k: nat) {
    forall i :: 0 <= i < |candidates| && candidates[i].Some? ==>
      Rank(candidates[i].value.claimType) == k + i
  }

  predicate RanksAtLeast(claims: seq<Claim>, k: nat) {
    forall i :: 0 <= i < |claims| ==> Rank(claims[i].claimType) >= k
  }

  predicate RanksBelow(claims: seq<Claim>, k: nat) {
    forall i :: 0 <= i < |claims| ==> Rank(claims[i].claimType) < k
  }

  lemma RankInjective(a: ClaimType, b: ClaimType)
    requires Rank(a) == Rank(b)
    ensures a == b
  {
  }

  /** Candidates ranked in increasing order yield an ordered claim list. */
  lemma {:induction false} PresentOrdered(candidates: seq<Option<Claim>>, k: nat)
    requires RankedFrom(candidates, k)
    ensures Ordered(Present(candidates)) && RanksAtLeast(Present(candidates), k)
    ensures RanksBelow(Present(candidates), k + |candidates|)
  {
    if candidates != [] {
      var rest := candidates[1..];
      assert RankedFrom(rest, k + 1) by {
        forall i | 0 <= i < |rest| && rest[i].Some?
          ensures Rank(rest[i].value.claimType) == k + 1 + i
        {
          assert rest[i] == candidates[i + 1];
        }
      }
      PresentOrdered(rest, k + 1);
    }
  }

  /** Every present claim satisfies what every candidate satisfies. */
  lemma {:induction false} PresentIssuedBy(candidates: seq<Option<Claim>>, authenticationType: string)
    requires forall i :: 0 <= i < |candidates| && candidates[i].Some? ==>
               candidates[i].value.valueType == XmlSchemaString
               && candidates[i].value.issuer == authenticationType
    ensures IssuedBy(Present(candidates), authenticationType)
  {
    if candidates != [] {
      var rest := candidates[1..];
      assert forall i :: 0 <= i < |rest| ==> rest[i] == candidates[i + 1];
      PresentIssuedBy(rest, authenticationType);
    }
  }

  lemma {:induction false} FindLacking(claims: seq<Claim>, claimType: ClaimType)
    requires forall i :: 0 <= i < |claims| ==> claims[i].claimType != claimType
    ensures Find(claims, claimType) == None
  {
    if claims != [] {
      FindLacking(claims[1..], claimType);
    }
  }

  /** Looking a type up among ranked candidates finds the candidate of that rank. */
  lemma {:induction false} PresentFind(candidates: seq<Option<Claim>>, k: nat, t: ClaimType)
    requires RankedFrom(candidates, k)
    requires k <= Rank(t) < k + |candidates|
    ensures var c := candidates[Rank(t) - k];
            Find(Present(candidates), t) == if c.Some? then Some(c.value.value) else None
  {
    var rest := candidates[1..];
    assert RankedFrom(rest, k + 1) by {
      forall i | 0 <= i < |rest| && rest[i].Some?
        ensures Rank(rest[i].value.claimType) == k + 1 + i
      {
        assert rest[i] == candidates[i + 1];
      }
    }
    if Rank(t) == k {
      PresentOrdered(rest, k + 1);
      FindLacking(Present(rest), t);
      if candidates[0].Some? {
        RankInjective(candidates[0].value.claimType, t);
      }
    } else {
      assert candidates[Rank(t) - k] == rest[Rank(t) - (k + 1)];
      PresentFind(rest, k + 1, t);
    }
  }

  /** The display name: given name and surname joined by a space, trimmed. */
  function DisplayName(givenName: Option<string>, surname: Option<string>): string {
    Trim(givenName.GetOr("") + " " + surname.GetOr(""))
  }

  /** A string that neither starts nor ends with white space. */
  predicate Tidy(s: string) {
    s == [] || (!IsWhiteSpace(s[0]) && !IsWhiteSpace(s[|s| - 1]))
  }

  /** For names without surrounding white space, the display name is the two joined
      by one space when both are present, and whichever is present otherwise. */
  lemma DisplayNameParts(givenName: Option<string>, surname: Option<string>)
    requires Tidy(givenName.GetOr("")) && Tidy(surname.GetOr(""))
    ensures var g := givenName.GetOr("");
            var s := surname.GetOr("");
            DisplayName(givenName, surname)
            == if g != [] && s != [] then g + " " + s else if g != [] then g else s
  {
    var g := givenName.GetOr("");
    var s := surname.GetOr("");
    if g != [] && s != [] {
      TrimBoth(g, s);
    } else if g != [] {
      TrimGivenOnly(g, s);
    } else {
      TrimSurnameOnly(g, s);
    }
  }

  lemma TrimBoth(g: string, s: string)
    requires Tidy(g) && Tidy(s) && g != [] && s != []
    ensures Trim(g + " " + s) == g + " " + s
  {
    var joined := g + " " + s;
    assert joined[0] == g[0] && joined[|joined| - 1] == s[|s| - 1];
    TrimPadded([], joined, []);
    assert [] + joined + [] == joined;
  }

  lemma TrimGivenOnly(g: string, s: string)
    requires Tidy(g) && g != [] && s == []
    ensures Trim(g + " " + s) == g
  {
    TrimPadded([], g, " ");
    assert [] + g + " " == g + " " + s;
  }

  lemma TrimSurnameOnly(g: string, s: string)
    requires Tidy(s) && g == []
    ensures Trim(g + " " + s) == s
  {
    TrimPadded(" ", s, []);
    assert " " + s + [] == g + " " + s;
  }

  /** The five candidate claims, in the order the provider considers them. The name
      claim is present when a given name or surname is non-empty, carrying the display
      name even when that trims to the empty string. */
  function Candidates(ctx: AuthenticatedContext.Context, authenticationType: string): (r: seq<Option<Claim>>)
    ensures |r| == 5 && RankedFrom(r, 0)
  {
    var hasName := !IsNullOrEmpty(ctx.givenName) || !IsNullOrEmpty(ctx.surname);
    [ ClaimIf(NameIdentifier, ctx.userId, authenticationType),
      if hasName then Some(NewClaim(Name, DisplayName(ctx.givenName, ctx.surname), XmlSchemaString,
                                    authenticationType))
      else None,
      ClaimIf(Email, ctx.email, authenticationType),
      ClaimIf(GivenName, ctx.givenName, authenticationType),
      ClaimIf(Surname, ctx.surname, authenticationType) ]
  }

  /** What the provider records under each claim type for a context. */
  function Expected(ctx: AuthenticatedContext.Context, t: ClaimType): Option<string> {
    match t
    case NameIdentifier => if IsNullOrEmpty(ctx.userId) then None else ctx.userId
    case Name =>
      if IsNullOrEmpty(ctx.givenName) && IsNullOrEmpty(ctx.surname) then None
      else Some(DisplayName(ctx.givenName, ctx.surname))
    case Email => if IsNullOrEmpty(ctx.email) then None else ctx.email
    case GivenName => if IsNullOrEmpty(ctx.givenName) then None else ctx.givenName
    case Surname => if IsNullOrEmpty(ctx.surname) then None else ctx.surname
    case Role => None
  }

  /** Each of the five candidate types is found with its expected value. */
  lemma FindCandidate(ctx: AuthenticatedContext.Context, authenticationType: string, t: ClaimType)
    requires t != Role
    ensures Find(Present(Candidates(ctx, authenticationType)), t) == Expected(ctx, t)
  {
    PresentFind(Candidates(ctx, authenticationType), 0, t);
  }

  /** No role claim is ever added. */
  lemma FindNoRole(ctx: AuthenticatedContext.Context, authenticationType: string)
    ensures Find(Present(Candidates(ctx, authenticationType)), Role) == None
  {
    var claims := Present(Candidates(ctx, authenticationType));
    PresentOrdered(Candidates(ctx, authenticationType), 0);
    assert RanksBelow(claims, 5);
    FindLacking(claims, Role);
  }

  /** The identity the provider builds from an authenticated context: claims in the
      order name identifier, name, email, given name, surname, each only when its
      source is neither null nor empty, all typed as strings and issued under the
      authentication type, or under `DefaultIssuer` when that type is empty. */
  function MapIdentity(ctx: AuthenticatedContext.Context, authenticationType: string): (r: Identity)
    ensures r.authenticationType == authenticationType
    ensures r.nameClaimType == Name && r.roleClaimType == Role
    ensures |r.claims| <= 5
    ensures authenticationType != [] ==> IssuedBy(r.claims, authenticationType)
    ensures authenticationType == [] ==> IssuedBy(r.claims, DefaultIssuer)
    ensures Ordered(r.claims)
    ensures forall t :: Find(r.claims, t) == Expected(ctx, t)
  {
    var candidates := Candidates(ctx, authenticationType);
    var claims := Present(candidates);
    PresentOrdered(candidates, 0);
    PresentIssuedBy(candidates, RecordedIssuer(authenticationType));
    assert forall t :: Find(claims, t) == Expected(ctx, t) by {
      forall t
        ensures Find(claims, t) == Expected(ctx, t)
      {
        if t == Role {
          FindNoRole(ctx, authenticationType);
        } else {
          FindCandidate(ctx, authenticationType, t);
        }
      }
    }
    Identity(authenticationType, Name, Role, claims)
  }
}

=== FILE: credentials.dfy ===
/** The client credential of the token request: HTTP Basic (section 2 of RFC 7617,
    section 2.3.1 of RFC 6749), the Base64 of the UTF-8 bytes of `id:secret`. */
module Credentials {
  import opened Wrappers
  import Utf8
  import Base64

  /** `AuthenticationHeaderValue(scheme, parameter)`. */
  datatype AuthenticationHeader = AuthenticationHeader(scheme: string, parameter: Option<string>)

  /** The handler's `ToBase64`: `Convert.ToBase64String(Encoding.UTF8.GetBytes(text))`,
      four characters per started group of three bytes. */
  function ToBase64(text: string): (r: string)
    ensures |r| == 4 * ((|Utf8.Encode(text)| + 2) / 3)
  {
    Base64.Encode(Utf8.Encode(text))
  }

  /** `ToBase64` loses nothing: its result decodes, as Base64 and then as UTF-8,
      back to the text. */
  lemma ToBase64Decodes(text: string)
    ensures Base64.Decode(ToBase64(text)) == Some(Utf8.Encode(text))
    ensures Utf8.Decode(Base64.Decode(ToBase64(text)).value) == Some(text)
  {
    Base64.DecodeEncode(Utf8.Encode(text));
    Utf8.DecodeEncode(text);
  }

  /** The `Authorization` header of the token request. */
  function BasicAuthorization(clientId: string, clientSecret: string): AuthenticationHeader {
    AuthenticationHeader("Basic", Some(ToBase64(clientId + ":" + clientSecret)))
  }

  /** Splits a user-pass at its first colon (section 2 of RFC 7617). */
  function SplitAtColon(s: string): (r: Option<(string, string)>)
    ensures r.Some? ==> r.value.0 + ":" + r.value.1 == s && ':' !in r.value.0
    ensures r.None? <==> ':' !in s
  {
    if s == [] then None
    else if s[0] == ':' then Some(([], s[1..]))
    else match SplitAtColon(s[1..])
      case None => None
      case Some((a, b)) => Some(([s[0]] + a, b))
  }

  /** What a server makes of a Basic credential: Base64, then UTF-8, then the first colon. */
  function ReadBasic(credential: string): Option<(string, string)> {
    match Base64.Decode(credential)
    case None => None
    case Some(bytes) =>
      match Utf8.Decode(bytes)
      case None => None
      case Some(text) => SplitAtColon(text)
  }

  lemma {:induction false} SplitAtColonJoin(a: string, b: string)
    requires ':' !in a
    ensures SplitAtColon(a + ":" + b) == Some((a, b))
  {
    if a == [] {
      assert a + ":" + b == [':'] + b;
    } else {
      assert (a + ":" + b)[1..] == a[1..] + ":" + b;
      SplitAtColonJoin(a[1..], b);
      assert [a[0]] + a[1..] == a;
    }
  }

  /** The server recovers the client id and secret from the header, provided the
      id has no colon (which section 2 of RFC 7617 forbids); the secret may contain any. */
  lemma ReadBasicAuthorization(clientId: string, clientSecret: string)
    requires ':' !in clientId
    ensures var h := BasicAuthorization(clientId, clientSecret);
            h.scheme == "Basic" && ReadBasic(h.parameter.value) == Some((clientId, clientSecret))
  {
    ToBase64Decodes(clientId + ":" + clientSecret);
    SplitAtColonJoin(clientId, clientSecret);
  }
}

=== FILE: handshake.dfy ===
/** The handshake end to end: the challenge's redirect, the authorization server's
    answer, the callback and the reply path, composed. The authorization server is
    modelled only as far as section 4.1.2 of RFC 6749 fixes it: it returns the
    `state` it was given together with a fresh code. */
module Handshake {
  import opened Wrappers
  import Text
  import opened Json
  import opened Claims
  import opened Protocol
  import opened QueryString
  import opened Callback
  import opened Challenge
  import opened ReplyPath
  import AuthenticatedContext
  import Int32Parse

  /** The query of the authorization server's redirect back to the client: the code
      it issues and the `state` of the authorization request, when that request
      carries exactly one. */
  function ServerReply(authorizationUri: string, code: string): (r: Option<Query>)
    ensures r.Some? ==> |r.value| == 2 && r.value[0] == ("code", code) && r.value[1].0 == "state"
  {
    match ReadQuery(authorizationUri)
    case None => None
    case Some(parameters) =>
      var states := Values(parameters, "state");
      if |states| == 1 then Some([("code", code), ("state", states[0])]) else None
  }

  /** The values of `state` and `code` in a reply query read back as given. */
  lemma ReplyValues(code: string, state: string)
    ensures SingleValue([("code", code), ("state", state)], "state") == Some(state)
    ensures SingleValue([("code", code), ("state", state)], "code") == Some(code)
    ensures SingleValue([("code", code), ("state", state)], "error") == None
  {
    var q := [("code", code), ("state", state)];
    assert q[1..][1..] == [];
    assert Values(q, "state") == [state];
    assert Values(q, "code") == [code];
    assert !Text.EqualsIgnoreCase("state", "error") by {
      assert Text.AsciiUpper("state"[0]) != Text.AsciiUpper("error"[0]);
    }
    assert Values(q, "error") == [];
  }

  /** The authorization request carries one `state`, the protected properties. */
  lemma AuthorizationState(options: Options, request: Request, state: string)
    ensures Values(AuthorizationParameters(options, request, state), "state") == [state]
  {
    var ps := AuthorizationParameters(options, request, state);
    var last := ps[1..][1..][1..];
    assert last == [("state", state)] && last[1..] == [];
    assert Values(last, "state") == [state];
    assert Values(ps[1..][1..], "state") == Values(last, "state");
    assert Values(ps[1..], "state") == Values(ps[1..][1..], "state");
  }

  /** The server's reply to any uri whose query carries exactly one `state`. */
  lemma ServerReplyOf(uri: string, parameters: seq<(string, string)>, state: string, code: string)
    requires ReadQuery(uri) == Some(parameters)
    requires Values(parameters, "state") == [state]
    ensures ServerReply(uri, code) == Some([("code", code), ("state", state)])
  {
  }

  /** The server's reply to a challenge's redirect returns the protected properties
      as `state`. */
  lemma ServerReturnsState(options: Options, request: Request, challenge: Properties, correlationId: string,
                           protect: Properties -> string, code: string)
    ensures var c := ApplyResponseChallenge(options, request, 401, Some(challenge), correlationId, protect);
            ServerReply(c.redirect.value, code) == Some([("code", code), ("state", protect(c.properties.value))])
  {
    var c := ApplyResponseChallenge(options, request, 401, Some(challenge), correlationId, protect);
    var state := protect(c.properties.value);
    var parameters := AuthorizationParameters(options, request, state);
    AuthorizationState(options, request, state);
    ServerReplyOf(c.redirect.value, parameters, state, code);
  }

  /** The third parameter of an authorization request and the third field of a
      token request are the same `redirect_uri`. */
  predicate SameRedirectUri(authorizationUri: string, tokenRequest: TokenRequest) {
    var q := ReadQuery(authorizationUri);
    && q.Some? && |q.value| > 2 && |tokenRequest.form| > 2
    && tokenRequest.form[2].0 == "redirect_uri" && tokenRequest.form[2].1.Some?
    && q.value[2] == ("redirect_uri", tokenRequest.form[2].1.value)
  }

  /** A challenge followed by the server's reply on the callback path: with a state
      protector whose `Unprotect` inverts `Protect`, and the correlation cookie the
      challenge set (a fresh value, never blank), the correlation check passes, the
      callback recovers the properties the challenge protected less their correlation
      entry, which the check consumes, and exchanges the code with the same
      `redirect_uri` the authorization request carried (section 4.1.3 of RFC 6749),
      as long as both requests reached the same scheme, host and base path. The
      callback's query is the server's reply to the challenge's redirect. */
  lemma ChallengeThenCallback(options: Options, challengeRequest: Request, challenge: Properties,
                              correlationId: string, protect: Properties -> string,
                              unprotect: Option<string> -> Option<Properties>,
                              callbackRequest: Request, code: string, backchannel: Backchannel)
    requires forall p :: unprotect(Some(protect(p))) == Some(p)
    requires !Text.IsNullOrWhiteSpace(Some(correlationId))
    requires BaseUri(callbackRequest) == BaseUri(challengeRequest)
    requires callbackRequest.query
             == [("code", code), ("state", protect(PrepareProperties(challenge, CurrentUri(challengeRequest), correlationId)))]
    ensures var c := ApplyResponseChallenge(options, challengeRequest, 401, Some(challenge), correlationId, protect);
            var r := AuthenticateCore(options, callbackRequest, unprotect, Some(correlationId), backchannel);
            && c.redirect.Some? && c.properties.Some?
            && c.properties.value.correlationId == Some(correlationId)
            && ServerReply(c.redirect.value, code) == Some(callbackRequest.query)
            && r.ticket.Some?
            && r.ticket.value.properties == c.properties.value.(correlationId := None)
            && r.tokenRequest.Some?
            && r.tokenRequest.value.form[1] == ("code", Some(code))
            && SameRedirectUri(c.redirect.value, r.tokenRequest.value)
  {
    var c := ApplyResponseChallenge(options, challengeRequest, 401, Some(challenge), correlationId, protect);
    ChallengeRedirect(options, challengeRequest, challenge, correlationId, protect);
    ServerReturnsState(options, challengeRequest, challenge, correlationId, protect, code);
    var properties := c.properties.value;
    assert unprotect(Some(protect(properties))) == Some(properties);
    CallbackOfReply(options, callbackRequest, unprotect, Some(correlationId), code, protect(properties), properties,
                    backchannel);
  }

  /** What the challenge sends: the fresh correlation value inside the protected
      properties, and the callback uri as the third of four parameters. */
  lemma ChallengeRedirect(options: Options, request: Request, challenge: Properties, correlationId: string,
                          protect: Properties -> string)
    ensures var c := ApplyResponseChallenge(options, request, 401, Some(challenge), correlationId, protect);
            && c.redirect.Some? && c.properties.Some?
            && c.properties.value.correlationId == Some(correlationId)
            && ReadQuery(c.redirect.value).Some?
            && |ReadQuery(c.redirect.value).value| == 4
            && ReadQuery(c.redirect.value).value[2] == ("redirect_uri", BaseUri(request) + options.callbackPath)
  {
    var c := ApplyResponseChallenge(options, request, 401, Some(challenge), correlationId, protect);
    var q := [("response_type", "code"), ("client_id", options.clientId),
              ("redirect_uri", BaseUri(request) + options.callbackPath), ("state", protect(c.properties.value))];
    assert ReadQuery(c.redirect.value) == Some(q);
    assert |q| == 4 && q[2] == ("redirect_uri", BaseUri(request) + options.callbackPath);
  }

  /** The callback for a server reply whose state decodes and whose correlation
      cookie matches: the properties come back less their correlation entry, and the
      token request carries the reply's code and this request's callback uri. */
  lemma CallbackOfReply(options: Options, request: Request, unprotect: Option<string> -> Option<Properties>,
                        correlationCookie: Option<string>, code: string, state: string, properties: Properties,
                        backchannel: Backchannel)
    requires request.query == [("code", code), ("state", state)]
    requires unprotect(Some(state)) == Some(properties)
    requires CorrelationHolds(properties, correlationCookie)
    ensures var r := AuthenticateCore(options, request, unprotect, correlationCookie, backchannel);
            && r.ticket.Some?
            && r.ticket.value.properties == properties.(correlationId := None)
            && r.tokenRequest.Some?
            && r.tokenRequest.value.form[1] == ("code", Some(code))
            && r.tokenRequest.value.form[2] == ("redirect_uri", Some(BaseUri(request) + options.callbackPath))
  {
    ReplyValues(code, state);
  }

  /** When the callback fails after the state was decoded, the reply path sends the
      user back where the challenge said, with `error=access_denied` appended, and
      signs nothing in. */
  lemma FailedCallbackDeniesAccess(options: Options, request: Request,
                                   unprotect: Option<string> -> Option<Properties>,
                                   correlationCookie: Option<string>, backchannel: Backchannel)
    requires ReplyPath.IsCallbackPath(options.callbackPath, request.path)
    ensures var r := AuthenticateCore(options, request, unprotect, correlationCookie, backchannel);
            var reply := InvokeReplyPath(options, request.path, r.ticket);
            r.ticket.Some? && r.ticket.value.identity.None? && r.ticket.value.properties.redirectUri.Some? ==>
              var redirectUri := r.ticket.value.properties.redirectUri.value;
              && reply.handled
              && reply.statusCode == Some(ReplyPath.RedirectStatus)
              && reply.signIn.None?
              && reply.redirect
                 == Some(redirectUri + (if '?' in redirectUri then "&" else "?") + "error" + "=" + "access_denied")
  {
  }

  /** A successful callback is signed in under the configured sign-in type, with the
      claims the profile gave, and redirected to the return uri unchanged. */
  lemma SuccessfulCallbackSignsIn(options: Options, request: Request,
                                  unprotect: Option<string> -> Option<Properties>,
                                  correlationCookie: Option<string>, backchannel: Backchannel, signInAs: string)
    requires ReplyPath.IsCallbackPath(options.callbackPath, request.path)
    requires options.signInAsAuthenticationType == Some(signInAs)
    ensures var r := AuthenticateCore(options, request, unprotect, correlationCookie, backchannel);
            var reply := InvokeReplyPath(options, request.path, r.ticket);
            r.ticket.Some? && r.ticket.value.identity.Some? && r.ticket.value.properties.redirectUri.Some? ==>
              && reply.handled
              && reply.statusCode == Some(ReplyPath.RedirectStatus)
              && reply.redirect == r.ticket.value.properties.redirectUri
              && reply.signIn.Some?
              && reply.signIn.value.0 == r.ticket.value.properties
              && reply.signIn.value.1.authenticationType == signInAs
              && reply.signIn.value.1.claims == MapIdentity(r.context.value, options.authenticationType).claims
  {
  }

  /** The token endpoint's answer in the worked example. */
  function ExampleTokenBody(): Json {
    Object(map["access_token" := Text("tok1"), "expires_in" := Text("3600"), "principal" := Text("a@b.com")])
  }

  /** The profile endpoint's answer in the worked example. */
  function ExampleProfileBody(): Json {
    Object(map["id" := Text("u1"), "name" := Object(map["givenName" := Text("Ana"), "familyName" := Text("Lee")])])
  }

  lemma ExampleDisplayName()
    ensures DisplayName(Some("Ana"), Some("Lee")) == "Ana Lee"
  {
    DisplayNameParts(Some("Ana"), Some("Lee"));
  }

  lemma ExampleTokenFields()
    ensures ReadTokenResponse(Response(200, Some(ExampleTokenBody())))
            == Ok(TokenFields(Some("tok1"), Some("3600"), None, Some("a@b.com")))
  {
    var fields := ExampleTokenBody().fields;
    assert "refresh_token" !in fields;
    assert TokenBodyReadable(fields);
  }

  /** The context built from the worked example's two answers. */
  function ExampleContext(): AuthenticatedContext.Context {
    AuthenticatedContext.Context(Some("tok1"), None, Some(3600), Some("a@b.com"), Some("u1"), Some("Ana"),
                                 Some("Lee"), None)
  }

  lemma ExampleContextBuilt()
    ensures AuthenticatedContext.New(Some("tok1"), Some("3600"), None, Some("a@b.com"),
                                     Some(ExampleProfileBody().fields))
            == Ok(ExampleContext())
  {
    Int32Parse.ParsePlainExample();
    var user := ExampleProfileBody().fields;
    assert AuthenticatedContext.Readable(user);
  }

  /** The claims of the worked example's context. */
  lemma ExampleClaims(authenticationType: string)
    ensures var claims := MapIdentity(ExampleContext(), authenticationType).claims;
            && Find(claims, NameIdentifier) == Some("u1")
            && Find(claims, Name) == Some("Ana Lee")
            && Find(claims, Email) == Some("a@b.com")
            && Find(claims, GivenName) == Some("Ana")
            && Find(claims, Surname) == Some("Lee")
  {
    ExampleDisplayName();
  }

  /** The back channel of the worked example. */
  function ExampleBackchannel(): Backchannel {
    Backchannel(_ => Response(200, Some(ExampleTokenBody())), _ => Response(200, Some(ExampleProfileBody())))
  }

  /** The worked example's callback builds the example context and signs it in. */
  lemma ExampleCallback(options: Options, request: Request, unprotect: Option<string> -> Option<Properties>,
                        correlationCookie: Option<string>)
    requires unprotect(SingleValue(request.query, "state")).Some?
    requires SingleValue(request.query, "error").None?
    requires CorrelationHolds(unprotect(SingleValue(request.query, "state")).value, correlationCookie)
    ensures var r := AuthenticateCore(options, request, unprotect, correlationCookie, ExampleBackchannel());
            && r.ticket.Some?
            && r.context == Some(ExampleContext())
            && r.ticket.value.identity == Some(MapIdentity(ExampleContext(), options.authenticationType))
  {
    ExampleTokenFields();
    ExampleContextBuilt();
  }

  /** The worked example: a valid callback whose token and profile calls succeed
      yields an identity with the five claims, the display name joined from the two
      names, and an expiry of 3600 seconds. */
  lemma WorkedExample(options: Options, request: Request, unprotect: Option<string> -> Option<Properties>,
                      correlationCookie: Option<string>)
    requires unprotect(SingleValue(request.query, "state")).Some?
    requires SingleValue(request.query, "error").None?
    requires CorrelationHolds(unprotect(SingleValue(request.query, "state")).value, correlationCookie)
    ensures var r := AuthenticateCore(options, request, unprotect, correlationCookie, ExampleBackchannel());
            && r.ticket.Some? && r.ticket.value.identity.Some?
            && r.context == Some(ExampleContext())
            && var claims := r.ticket.value.identity.value.claims;
               && Find(claims, NameIdentifier) == Some("u1")
               && Find(claims, Name) == Some("Ana Lee")
               && Find(claims, Email) == Some("a@b.com")
               && Find(claims, GivenName) == Some("Ana")
               && Find(claims, Surname) == Some("Lee")
  {
    ExampleCallback(options, request, unprotect, correlationCookie);
    ExampleClaims(options.authenticationType);
  }
}

=== FILE: int32parse.dfy ===
/** `Int32.TryParse(s, NumberStyles.Integer, CultureInfo.InvariantCulture, out v)`:
    optional leading white space, an optional `+` or `-`, at least one ASCII digit,
    optional trailing white space, then nothing but NUL characters; the value must
    fit in a signed 32-bit integer. */
module Int32Parse {
  import opened Wrappers

  const MinInt32: int := -0x8000_0000
  const MaxInt32: int := 0x7FFF_FFFF

  predicate InInt32(n: int) {
    MinInt32 <= n <= MaxInt32
  }

  /** The white space that number parsing skips: space and U+0009..U+000D only,
      a narrower set than `Char.IsWhiteSpace`. */
  predicate IsNumberWhite(c: char) {
    c == ' ' || ('\t' <= c <= '\r')
  }

  predicate IsDigit(c: char) {
    '0' <= c <= '9'
  }

  /** Length of the longest prefix of `s` whose characters all satisfy the class. */
  function LeadingWhite(s: string): (n: nat)
    ensures n <= |s|
    ensures forall i :: 0 <= i < n ==> IsNumberWhite(s[i])
    ensures n == |s| || !IsNumberWhite(s[n])
  {
    if |s| > 0 && IsNumberWhite(s[0]) then 1 + LeadingWhite(s[1..]) else 0
  }

  function LeadingDigits(s: string): (n: nat)
    ensures n <= |s|
    ensures forall i :: 0 <= i < n ==> IsDigit(s[i])
    ensures n == |s| || !IsDigit(s[n])
  {
    if |s| > 0 && IsDigit(s[0]) then 1 + LeadingDigits(s[1..]) else 0
  }

  /** The number a run of decimal digits denotes, most significant first. */
  function DigitsValue(ds: string): (v: nat)
    requires forall i :: 0 <= i < |ds| ==> IsDigit(ds[i])
  {
    if ds == [] then 0
    else
      assert IsDigit(ds[|ds| - 1]);
      DigitsValue(ds[..|ds| - 1]) * 10 + (ds[|ds| - 1] as int - '0' as int)
  }

  predicate AllNul(s: string) {
    forall i :: 0 <= i < |s| ==> s[i] == '\0'
  }

  /** After the digits: number white space, then only NULs to the end. */
  predicate TrailerOk(u: string) {
    AllNul(u[LeadingWhite(u)..])
  }

  /** The digits and trailer, once white space and sign are consumed. */
  function ParseDigits(u: string, negative: bool): (r: Option<int>)
    ensures r.Some? ==> InInt32(r.value) && |u| > 0 && IsDigit(u[0])
  {
    var d := LeadingDigits(u);
    if d == 0 || !TrailerOk(u[d..]) then None
    else
      var magnitude: int := DigitsValue(u[..d]);
      var v := if negative then -magnitude else magnitude;
      if InInt32(v) then Some(v) else None
  }

  /** The optional sign, once leading white space is consumed. */
  function ParseSigned(u: string): (r: Option<int>)
    ensures r.Some? ==> InInt32(r.value)
  {
    if |u| > 0 && u[0] == '-' then ParseDigits(u[1..], true)
    else if |u| > 0 && u[0] == '+' then ParseDigits(u[1..], false)
    else ParseDigits(u, false)
  }

  /** The parse; `None` is `TryParse` returning false (including for a null string). */
  function Parse(s: Option<string>): (r: Option<int>)
    ensures r.Some? ==> InInt32(r.value)
    ensures s.None? ==> r.None?
  {
    if s.None? then None else ParseSigned(s.value[LeadingWhite(s.value)..])
  }

  /** The invariant-culture decimal rendering of a natural number. */
  function Digits(n: nat): (ds: string)
    ensures |ds| >= 1
    ensures forall i :: 0 <= i < |ds| ==> IsDigit(ds[i])
  {
    var last := ('0' as int + n % 10) as char;
    if n < 10 then [last] else Digits(n / 10) + [last]
  }

  /** `Int32.ToString(CultureInfo.InvariantCulture)` for any integer. */
  function Format(n: int): string {
    if n < 0 then "-" + Digits(-n) else Digits(n)
  }

  lemma {:induction false} DigitsValueOfDigits(n: nat)
    ensures DigitsValue(Digits(n)) == n
  {
    var ds := Digits(n);
    if n >= 10 {
      DigitsValueOfDigits(n / 10);
      assert ds[..|ds| - 1] == Digits(n / 10);
    }
  }

  lemma {:induction false} LeadingDigitsOfDigits(ds: string, rest: string)
    requires forall i :: 0 <= i < |ds| ==> IsDigit(ds[i])
    requires rest == [] || !IsDigit(rest[0])
    ensures LeadingDigits(ds + rest) == |ds|
  {
    if ds != [] {
      assert (ds + rest)[1..] == ds[1..] + rest;
      LeadingDigitsOfDigits(ds[1..], rest);
    } else {
      assert ds + rest == rest;
    }
  }

  predicate AllNumberWhite(s: string) {
    forall i :: 0 <= i < |s| ==> IsNumberWhite(s[i])
  }

  predicate AllDigits(s: string) {
    forall i :: 0 <= i < |s| ==> IsDigit(s[i])
  }

  lemma {:induction false} LeadingWhiteOfPadded(ws: string, t: string)
    requires AllNumberWhite(ws)
    requires t == [] || !IsNumberWhite(t[0])
    ensures LeadingWhite(ws + t) == |ws|
  {
    if ws != [] {
      assert (ws + t)[1..] == ws[1..] + t;
      LeadingWhiteOfPadded(ws[1..], t);
    } else {
      assert ws + t == t;
    }
  }

  /** The signed value of a digit run. */
  function SignedValue(negative: bool, ds: string): int
    requires AllDigits(ds)
  {
    var m: int := DigitsValue(ds);
    if negative then -m else m
  }

  lemma ParseDigitsOfParts(ds: string, ws': string, nuls: string, negative: bool)
    requires AllNumberWhite(ws') && AllNul(nuls)
    requires |ds| >= 1 && AllDigits(ds)
    ensures ParseDigits(ds + ws' + nuls, negative)
            == if InInt32(SignedValue(negative, ds)) then Some(SignedValue(negative, ds)) else None
  {
    var tail := ws' + nuls;
    var u := ds + ws' + nuls;
    assert u == ds + tail;
    assert !IsDigit('\0');
    assert tail == [] || !IsDigit(tail[0]);
    LeadingDigitsOfDigits(ds, tail);
    assert u[..|ds|] == ds;
    assert u[|ds|..] == tail;
    LeadingWhiteOfPadded(ws', nuls);
    assert tail[|ws'|..] == nuls;
  }

  lemma ParseSignedWithSign(c: char, rest: string)
    requires c == '-' || c == '+'
    ensures ParseSigned([c] + rest) == ParseDigits(rest, c == '-')
  {
    assert ([c] + rest)[1..] == rest;
  }

  lemma ParseSignedWithoutSign(rest: string)
    requires |rest| > 0 && IsDigit(rest[0])
    ensures ParseSigned(rest) == ParseDigits(rest, false)
  {
  }

  lemma ParseSignedOfParts(sign: string, ds: string, ws': string, nuls: string)
    requires AllNumberWhite(ws') && AllNul(nuls)
    requires sign == "" || sign == "+" || sign == "-"
    requires |ds| >= 1 && AllDigits(ds)
    ensures var v := SignedValue(sign == "-", ds);
            ParseSigned(sign + (ds + ws' + nuls)) == if InInt32(v) then Some(v) else None
  {
    var rest := ds + ws' + nuls;
    ParseDigitsOfParts(ds, ws', nuls, sign == "-");
    if sign == "" {
      assert rest[0] == ds[0];
      ParseSignedWithoutSign(rest);
      assert sign + rest == rest;
    } else {
      ParseSignedWithSign(sign[0], rest);
      assert sign == [sign[0]];
    }
  }

  /** The accepted grammar: white space, an optional sign, digits, white space and
      NULs parse to the signed value of the digits whenever it fits in 32 bits. */
  lemma ParseOfParts(ws: string, sign: string, ds: string, ws': string, nuls: string)
    requires AllNumberWhite(ws) && AllNumberWhite(ws') && AllNul(nuls)
    requires sign == "" || sign == "+" || sign == "-"
    requires |ds| >= 1 && AllDigits(ds)
    ensures var v := SignedValue(sign == "-", ds);
            Parse(Some(ws + sign + ds + ws' + nuls)) == if InInt32(v) then Some(v) else None
  {
    var u := sign + (ds + ws' + nuls);
    var t := ws + sign + ds + ws' + nuls;
    assert t == ws + u;
    assert u[0] == '+' || u[0] == '-' || u[0] == ds[0];
    LeadingWhiteOfPadded(ws, u);
    assert t[|ws|..] == u;
    ParseSignedOfParts(sign, ds, ws', nuls);
  }

  /** `s` split into the accepted grammar's five parts. */
  predicate NumberParts(s: string, ws: string, sign: string, ds: string, ws': string, nuls: string) {
    && AllNumberWhite(ws) && AllNumberWhite(ws') && AllNul(nuls)
    && (sign == "" || sign == "+" || sign == "-")
    && |ds| >= 1 && AllDigits(ds)
    && s == ws + sign + ds + ws' + nuls
  }

  /** The sign `ParseSigned` consumes: `-`, `+` or none. */
  function SignOf(u: string): (sign: string)
    ensures sign == "" || sign == "+" || sign == "-"
    ensures sign <= u
  {
    if |u| > 0 && u[0] == '-' then "-" else if |u| > 0 && u[0] == '+' then "+" else ""
  }

  lemma ParseSignedShape(u: string)
    ensures u == SignOf(u) + u[|SignOf(u)|..]
    ensures ParseSigned(u) == ParseDigits(u[|SignOf(u)|..], SignOf(u) == "-")
  {
  }

  /** What an accepted digit part consists of: digits, white space, then NULs. */
  lemma ParseDigitsShape(v: string, negative: bool)
    requires ParseDigits(v, negative).Some?
    ensures var d := LeadingDigits(v);
            var t := v[d..];
            var m := LeadingWhite(t);
            && d >= 1 && AllDigits(v[..d]) && AllNumberWhite(t[..m]) && AllNul(t[m..])
            && v == v[..d] + t[..m] + t[m..]
            && ParseDigits(v, negative) == Some(SignedValue(negative, v[..d]))
  {
    var d := LeadingDigits(v);
    var t := v[d..];
    var m := LeadingWhite(t);
    SplitAt(t, m);
    SplitAt(v, d);
  }

  /** `s` has the grammar's shape with these parts, and parses to their value. */
  predicate ParsedFrom(s: string, ws: string, sign: string, ds: string, ws': string, nuls: string) {
    NumberParts(s, ws, sign, ds, ws', nuls) && Parse(Some(s)) == Some(SignedValue(sign == "-", ds))
  }

  /** The converse of `ParseOfParts`: every accepted string has the grammar's shape,
      and its value is the signed value of its digits. */
  lemma ParseShape(s: string)
    requires Parse(Some(s)).Some?
    ensures exists ws, sign, ds, ws', nuls :: ParsedFrom(s, ws, sign, ds, ws', nuls)
  {
    var ws, sign, ds, ws', nuls := AcceptedParts(s);
  }

  /** The parts of an accepted string, as the parser finds them. */
  lemma AcceptedParts(s: string) returns (ws: string, sign: string, ds: string, ws': string, nuls: string)
    requires Parse(Some(s)).Some?
    ensures ParsedFrom(s, ws, sign, ds, ws', nuls)
  {
    var n := LeadingWhite(s);
    var u;
    ws, u := s[..n], s[n..];
    sign := SignOf(u);
    var v := u[|sign|..];
    var d := LeadingDigits(v);
    var t := v[d..];
    var m := LeadingWhite(t);
    ds, ws', nuls := v[..d], t[..m], t[m..];
    assert s == ws + u && AllNumberWhite(ws) by {
      SplitAt(s, n);
    }
    assert u == sign + v && Parse(Some(s)) == ParseDigits(v, sign == "-") by {
      ParseSignedShape(u);
    }
    assert v == ds + ws' + nuls && Parse(Some(s)) == Some(SignedValue(sign == "-", ds))
           && |ds| >= 1 && AllDigits(ds) && AllNumberWhite(ws') && AllNul(nuls) by {
      ParseDigitsShape(v, sign == "-");
    }
    Assemble(s, ws, u, sign, v, ds, ws', nuls);
    assert ParsedFrom(s, ws, sign, ds, ws', nuls);
  }

  lemma Assemble(s: string, ws: string, u: string, sign: string, v: string, ds: string, ws': string, nuls: string)
    requires s == ws + u && u == sign + v && v == ds + ws' + nuls
    requires AllNumberWhite(ws) && AllNumberWhite(ws') && AllNul(nuls)
    requires sign == "" || sign == "+" || sign == "-"
    requires |ds| >= 1 && AllDigits(ds)
    ensures NumberParts(s, ws, sign, ds, ws', nuls)
  {
    Regroup5(ws, sign, ds, ws', nuls);
  }

  lemma SplitAt(s: string, n: nat)
    requires n <= |s|
    ensures s == s[..n] + s[n..]
  {
  }

  lemma Regroup5(a: string, b: string, c: string, d: string, e: string)
    ensures a + (b + (c + d + e)) == a + b + c + d + e
  {
  }

  /** Parsing a rendered number gives it back exactly when it fits in 32 bits,
      and refuses it otherwise. */
  lemma ParseFormat(n: int)
    ensures Parse(Some(Format(n))) == if InInt32(n) then Some(n) else None
  {
    var m := if n < 0 then -n else n;
    var sign := if n < 0 then "-" else "";
    DigitsValueOfDigits(m);
    ParseOfParts("", sign, Digits(m), "", "");
    assert "" + sign + Digits(m) + "" + "" == Format(n);
  }

  lemma ExampleDigits()
    ensures AllDigits("3600") && DigitsValue("3600") == 3600
  {
    assert AllDigits("3");
    assert "36"[..1] == "3" && "360"[..2] == "36" && "3600"[..3] == "360";
    assert DigitsValue("3") == 3;
    assert DigitsValue("36") == 36;
    assert DigitsValue("360") == 360;
  }

  /** The `expires_in` value of a typical token response. */
  lemma ParsePlainExample()
    ensures Parse(Some("3600")) == Some(3600)
  {
    ExampleDigits();
    ParseOfParts("", "", "3600", "", "");
    assert "" + "" + "3600" + "" + "" == "3600";
  }

  /** A leading `+` and trailing NULs are accepted. */
  lemma ParseSignNulExample()
    ensures Parse(Some("+7\0")) == Some(7)
  {
    DigitsValueOfDigits(7);
    assert Digits(7) == "7";
    ParseOfParts("", "+", "7", "", "\0");
    assert "" + "+" + "7" + "" + "\0" == "+7\0";
  }
}

=== FILE: json.dfy ===
/** The fragment of Newtonsoft's `JToken` behaviour the provider depends on:
    the string-key indexer and conversion with `Value<string>()`.
    Numbers and booleans arrive as `Text`, already in the form
    `Value<string>()` renders them. */
module Json {
  import opened Wrappers

  datatype Json =
    | Null
    | Text(s: string)
    | Object(fields: map<string, Json>)
    | Array(items: seq<Json>)

  /** `token?[key]`: a null token stays null; an object yields the property or null;
      indexing a value or an array by a string key throws. */
  function Child(token: Option<Json>, key: string): (r: Result<Option<Json>, Fault>)
    ensures token.None? ==> r == Ok(None)
    ensures r.Err? <==> token.Some? && !token.value.Object?
    ensures token.Some? && token.value.Object? ==>
              r == Ok(if key in token.value.fields then Some(token.value.fields[key]) else None)
    ensures r.Ok? && r.value.Some? ==>
              && token.Some? && token.value.Object?
              && key in token.value.fields
              && r.value.value == token.value.fields[key]
  {
    match token
    case None => Ok(None)
    case Some(Object(fields)) => if key in fields then Ok(Some(fields[key])) else Ok(None)
    case Some(Null) => Err(InvalidOperation("Cannot access child value on JValue"))
    case Some(Text(_)) => Err(InvalidOperation("Cannot access child value on JValue"))
    case Some(Array(_)) => Err(Argument("Accessed JArray values with invalid key value"))
  }

  /** `token?.Value<string>()`: null and JSON null give null, a scalar gives its text,
      an object or array cannot be cast. */
  function AsString(token: Option<Json>): (r: Result<Option<string>, Fault>)
    ensures r.Ok? && r.value.Some? <==> token.Some? && token.value.Text?
    ensures r.Ok? && r.value.Some? ==> r.value.value == token.value.s
    ensures r.Err? <==> token.Some? && (token.value.Object? || token.value.Array?)
  {
    match token
    case None => Ok(None)
    case Some(Null) => Ok(None)
    case Some(Text(s)) => Ok(Some(s))
    case Some(Object(_)) => Err(InvalidCast)
    case Some(Array(_)) => Err(InvalidCast)
  }

  /** The string a field holds, if it holds one. */
  function TextOf(fields: map<string, Json>, key: string): Option<string> {
    if key in fields && fields[key].Text? then Some(fields[key].s) else None
  }

  /** A field `Value<string>()` can convert: absent, null or a scalar. */
  predicate Convertible(fields: map<string, Json>, key: string) {
    key in fields ==> !fields[key].Object? && !fields[key].Array?
  }

  /** `token.Value<string>(key)` on an object: the property as a string, or null when
      absent or JSON null; an object or array property cannot be cast. */
  function StringField(fields: map<string, Json>, key: string): (r: Result<Option<string>, Fault>)
    ensures r.Ok? <==> Convertible(fields, key)
    ensures r.Ok? ==> r.value == TextOf(fields, key)
  {
    match Child(Some(Object(fields)), key)
    case Err(e) => Err(e)
    case Ok(child) => AsString(child)
  }
}

=== FILE: middleware.dfy ===
/** `GoToAuthenticationMiddleware`: validating and completing the options once, at
    start-up, and choosing the back-channel message handler. */
module Middleware {
  import opened Wrappers
  import opened Text

  /** `MaxResponseContentBufferSize`: 10 MB. */
  const MaxResponseContentBufferSize: int := 1024 * 1024 * 10

  const ClientIdMissing: string := "ClientId option must be provided."
  const ClientSecretMissing: string := "ClientSecret option must be provided."
  const HandlerMismatch: string := "Vaidator Handler Mismatch"

  /** A `TimeSpan` is a count of 100-nanosecond ticks. */
  const TicksPerMillisecond: int := 10000

  /** `Timeout.InfiniteTimeSpan`: minus one millisecond. */
  const InfiniteTimeout: int := -TicksPerMillisecond

  /** The longest finite `HttpClient.Timeout`: `Int32.MaxValue` milliseconds. */
  const MaxTimeout: int := 0x7FFF_FFFF * TicksPerMillisecond

  /** What the `HttpClient.Timeout` setter accepts: the infinite timeout, or a
      positive span of at most `MaxTimeout`; anything else throws
      `ArgumentOutOfRangeException`. */
  predicate ValidTimeout(ticks: int) {
    ticks == InfiniteTimeout || 0 < ticks <= MaxTimeout
  }

  /** The certificate validator the application may supply. */
  datatype Validator = Validator(name: string)

  /** An `HttpMessageHandler`: a `WebRequestHandler`, which can carry a certificate
      validation callback, or a handler of some other kind. */
  datatype HandlerKind = WebRequestHandler | OtherHandler(name: string)
  datatype Handler = Handler(kind: HandlerKind, validation: Option<Validator>)

  /** The events object: the library's default or the application's own. */
  datatype Provider = DefaultProvider | CustomProvider(name: string)

  /** The state format: a `PropertiesDataFormat` over a protector made for the given
      purposes, or the application's own. */
  datatype StateFormat = PropertiesDataFormat(purposes: seq<string>) | CustomFormat(name: string)

  /** `GoToAuthenticationOptions` as the application configured them. */
  datatype MiddlewareOptions = MiddlewareOptions(
    clientId: Option<string>,
    clientSecret: Option<string>,
    authenticationType: string,
    callbackPath: string,
    provider: Option<Provider>,
    stateDataFormat: Option<StateFormat>,
    signInAsAuthenticationType: Option<string>,
    backchannelHttpHandler: Option<Handler>,
    backchannelCertificateValidator: Option<Validator>,
    backchannelTimeout: int)  // in ticks

  /** The back-channel `HttpClient` the middleware builds. */
  datatype HttpClientConfig = HttpClientConfig(handler: Handler, timeout: int, maxResponseContentBufferSize: int)

  /** The purposes the default state protector is created for. */
  function StatePurposes(authenticationType: string): seq<string> {
    ["Owin.Security.Providers.GoTo.GoToAuthenticationMiddleware", authenticationType, "v1"]
  }

  /** A handler made by `new WebRequestHandler()`. */
  const NewWebRequestHandler: Handler := Handler(WebRequestHandler, None)

  /** `ResolveHttpMessageHandler`: the supplied handler, or a new `WebRequestHandler`.
      A certificate validator can only be attached to a `WebRequestHandler`; with
      any other kind of handler it is an error. */
  function ResolveHttpMessageHandler(options: MiddlewareOptions): (r: Result<Handler, Fault>)
    ensures r.Err? <==>
              && options.backchannelCertificateValidator.Some?
              && options.backchannelHttpHandler.Some?
              && !options.backchannelHttpHandler.value.kind.WebRequestHandler?
    ensures r.Err? ==> r.error == InvalidOperation(HandlerMismatch)
    ensures r.Ok? ==>
              r.value.kind == (if options.backchannelHttpHandler.Some? then options.backchannelHttpHandler.value.kind
                               else WebRequestHandler)
    ensures r.Ok? && options.backchannelCertificateValidator.Some? ==>
              r.value.validation == options.backchannelCertificateValidator
    ensures r.Ok? && options.backchannelCertificateValidator.None? ==>
              r.value == options.backchannelHttpHandler.GetOr(NewWebRequestHandler)
  {
    var handler := options.backchannelHttpHandler.GetOr(NewWebRequestHandler);
    match options.backchannelCertificateValidator
    case None => Ok(handler)
    case Some(validator) =>
      if !handler.kind.WebRequestHandler? then Err(InvalidOperation(HandlerMismatch))
      else Ok(handler.(validation := Some(validator)))
  }

  /** The constructor: both client credentials must be present and not blank
      (`ClientId` is checked first); the provider and the state format are filled in
      only when missing; the sign-in type falls back to the application's default
      only when null or empty; then the back-channel client is built: first its
      handler is resolved, then its timeout is set, which must be in range. The
      application's default sign-in type is an input, as reading it may fail. */
  function Create(options: MiddlewareOptions, appDefaultSignInAs: Result<string, Fault>)
    : (r: Result<(MiddlewareOptions, HttpClientConfig), Fault>)
    ensures IsNullOrWhiteSpace(options.clientId) ==> r == Err(Argument(ClientIdMissing))
    ensures !IsNullOrWhiteSpace(options.clientId) && IsNullOrWhiteSpace(options.clientSecret) ==>
              r == Err(Argument(ClientSecretMissing))
    ensures r.Ok? ==> !IsNullOrWhiteSpace(options.clientId) && !IsNullOrWhiteSpace(options.clientSecret)
    ensures r.Ok? ==> ValidTimeout(options.backchannelTimeout)
    ensures r.Ok? ==>
              var completed := r.value.0;
              && completed.provider == Some(options.provider.GetOr(DefaultProvider))
              && completed.stateDataFormat
                 == Some(options.stateDataFormat.GetOr(PropertiesDataFormat(StatePurposes(options.authenticationType))))
              && completed.signInAsAuthenticationType.Some?
              && (!IsNullOrEmpty(options.signInAsAuthenticationType) ==>
                    completed.signInAsAuthenticationType == options.signInAsAuthenticationType)
              && (IsNullOrEmpty(options.signInAsAuthenticationType) ==>
                    appDefaultSignInAs.Ok? && completed.signInAsAuthenticationType == Some(appDefaultSignInAs.value))
              && completed.(provider := options.provider, stateDataFormat := options.stateDataFormat,
                            signInAsAuthenticationType := options.signInAsAuthenticationType) == options
    ensures r.Ok? ==>
              && ResolveHttpMessageHandler(options).Ok?
              && r.value.1 == HttpClientConfig(ResolveHttpMessageHandler(options).value,
                                               options.backchannelTimeout, 10485760)
    ensures r.Err? && !IsNullOrWhiteSpace(options.clientId) && !IsNullOrWhiteSpace(options.clientSecret) ==>
              || (IsNullOrEmpty(options.signInAsAuthenticationType) && appDefaultSignInAs.Err?)
              || ResolveHttpMessageHandler(options).Err?
              || !ValidTimeout(options.backchannelTimeout)
    ensures !IsNullOrWhiteSpace(options.clientId) && !IsNullOrWhiteSpace(options.clientSecret) ==>
              if IsNullOrEmpty(options.signInAsAuthenticationType) && appDefaultSignInAs.Err? then
                r == Err(appDefaultSignInAs.error)
              else if ResolveHttpMessageHandler(options).Err? then
                r == Err(InvalidOperation(HandlerMismatch))
              else if !ValidTimeout(options.backchannelTimeout) then
                r == Err(ArgumentOutOfRange("value"))
              else r.Ok?
  {
    if IsNullOrWhiteSpace(options.clientId) then Err(Argument(ClientIdMissing))
    else if IsNullOrWhiteSpace(options.clientSecret) then Err(Argument(ClientSecretMissing))
    else
      var withProvider := if options.provider.None? then options.(provider := Some(DefaultProvider)) else options;
      var withFormat :=
        if withProvider.stateDataFormat.None? then
          withProvider.(stateDataFormat := Some(PropertiesDataFormat(StatePurposes(options.authenticationType))))
        else withProvider;
      var signInAs :=
        if IsNullOrEmpty(withFormat.signInAsAuthenticationType) then
          match appDefaultSignInAs
          case Err(e) => Err(e)
          case Ok(s) => Ok(Some(s))
        else Ok(withFormat.signInAsAuthenticationType);
      match signInAs
      case Err(e) => Err(e)
      case Ok(s) =>
        var completed := withFormat.(signInAsAuthenticationType := s);
        match ResolveHttpMessageHandler(completed)
        case Err(e) => Err(e)
        case Ok(handler) =>
          if !ValidTimeout(completed.backchannelTimeout) then Err(ArgumentOutOfRange("value"))
          else Ok((completed, HttpClientConfig(handler, completed.backchannelTimeout, MaxResponseContentBufferSize)))
  }

  /** Completing options is idempotent: options the constructor completed are
      accepted again as they are, with the same back-channel client. */
  lemma CreateIdempotent(options: MiddlewareOptions, appDefaultSignInAs: Result<string, Fault>)
    requires Create(options, appDefaultSignInAs).Ok?
    ensures var r := Create(options, appDefaultSignInAs);
            Create(r.value.0, appDefaultSignInAs) == r
  {
  }
}

=== FILE: protocol.dfy ===
/** The OWIN vocabulary the handler works with: the request, its query, the
    authentication properties, the ticket, back-channel responses and the
    handler's options. */
module Protocol {
  import opened Wrappers
  import opened Text
  import opened Json
  import opened Claims

  /** A query string as the sequence of its `name=value` pairs, already unescaped. */
  type Query = seq<(string, string)>

  /** Every value given to a parameter, in order; names compare case-insensitively. */
  function Values(query: Query, key: string): (r: seq<string>)
    ensures |r| <= |query|
  {
    if query == [] then []
    else
      var rest := Values(query[1..], key);
      if EqualsIgnoreCase(query[0].0, key) then [query[0].1] + rest else rest
  }

  /** A single pair contributes its value exactly when its name matches the key. */
  lemma ValuesOne(name: string, value: string, key: string)
    ensures Values([(name, value)], key) == if EqualsIgnoreCase(name, key) then [value] else []
  {
  }

  /** The values of a concatenated query are those of each part, in order: together
      with `ValuesOne`, `Values` keeps the matching pairs' values in query order and
      drops the others. */
  lemma {:induction false} ValuesAppend(q1: Query, q2: Query, key: string)
    ensures Values(q1 + q2, key) == Values(q1, key) + Values(q2, key)
  {
    if q1 == [] {
      assert q1 + q2 == q2;
    } else {
      assert (q1 + q2)[0] == q1[0];
      assert (q1 + q2)[1..] == q1[1..] + q2;
      ValuesAppend(q1[1..], q2, key);
    }
  }

  /** `Request.Query.GetValues(key)`: null when the parameter does not occur. */
  function GetValues(query: Query, key: string): Option<seq<string>> {
    var vs := Values(query, key);
    if vs == [] then None else Some(vs)
  }

  /** The handler's pattern `values != null && values.Count == 1 ? values[0] : null`. */
  function SingleValue(query: Query, key: string): (r: Option<string>)
    ensures r.Some? <==> |Values(query, key)| == 1
    ensures r.Some? ==> r.value == Values(query, key)[0]
  {
    var values := GetValues(query, key);
    if values.Some? && |values.value| == 1 then Some(values.value[0]) else None
  }

  /** `AuthenticationProperties`: where to go after sign-in, the correlation
      (anti-forgery) value and any other items. */
  datatype Properties = Properties(redirectUri: Option<string>, correlationId: Option<string>,
                                   items: map<string, string>)

  /** `AuthenticationTicket`: an identity (null on failure) and the properties. */
  datatype Ticket = Ticket(identity: Option<Identity>, properties: Properties)

  /** The parts of the incoming request the handler reads. `host`, `pathBase`, `path`
      and `queryString` are in their rendered form (`queryString` empty or starting with `?`). */
  datatype Request = Request(scheme: string, host: string, pathBase: string, path: string,
                             queryString: string, query: Query)

  /** What a back-channel call produced: the transport failed (an exception), or a
      status code with the body as parsed JSON (`None` when the body is not JSON). */
  datatype HttpOutcome = TransportFailure | Response(status: int, body: Option<Json>)

  /** `HttpResponseMessage.IsSuccessStatusCode`. */
  predicate IsSuccessStatus(status: int) {
    200 <= status <= 299
  }

  /** The options the handler runs with, after the middleware has validated them. */
  datatype Options = Options(clientId: string, clientSecret: string, authenticationType: string,
                             callbackPath: string, signInAsAuthenticationType: Option<string>)

  /** `Request.Scheme + "://" + Request.Host + Request.PathBase`. */
  function BaseUri(request: Request): string {
    request.scheme + "://" + request.host + request.pathBase
  }

  /** The absolute URI of the callback path, as both the challenge and the token
      request send it. */
  function CallbackUri(request: Request, options: Options): string {
    BaseUri(request) + options.callbackPath
  }
}

=== FILE: query_string.dfy ===
/** `WebUtilities.AddQueryString`, which builds the authorization redirect and the
    `error=access_denied` hint, and a reader for the query it produces, playing
    the part of the server that receives it. */
module QueryString {
  import opened Wrappers
  import opened UriEscape

  /** One `name=value` parameter, both halves escaped. */
  function Parameter(pair: (string, string)): (r: string)
    ensures '&' !in r && '?' !in r && '#' !in r
  {
    Escape(pair.0) + "=" + Escape(pair.1)
  }

  /** `AddQueryString(uri, name, value)`: `?` starts the query unless the uri has one. */
  function AddParameter(uri: string, pair: (string, string)): (r: string)
    ensures '?' in r
  {
    uri + (if '?' in uri then "&" else "?") + Parameter(pair)
  }

  /** `AddQueryString(uri, parameters)`, the parameters in the order given. */
  function AddQueryString(uri: string, pairs: seq<(string, string)>): string
    decreases |pairs|
  {
    if pairs == [] then uri else AddQueryString(AddParameter(uri, pairs[0]), pairs[1..])
  }

  /** The parameters joined by `&`. */
  function Joined(pairs: seq<(string, string)>): (r: string)
    requires pairs != []
    ensures '#' !in r
    decreases |pairs|
  {
    if |pairs| == 1 then Parameter(pairs[0]) else Parameter(pairs[0]) + "&" + Joined(pairs[1..])
  }

  /** Once the uri has a query, every parameter goes after a `&`. */
  lemma {:induction false} AddToQuery(uri: string, pairs: seq<(string, string)>)
    requires '?' in uri && pairs != []
    ensures AddQueryString(uri, pairs) == uri + "&" + Joined(pairs)
    decreases |pairs|
  {
    var next := AddParameter(uri, pairs[0]);
    assert next == uri + "&" + Parameter(pairs[0]);
    if |pairs| > 1 {
      AddToQuery(next, pairs[1..]);
    }
  }

  /** The rendered uri: the original, a separator, then the parameters in order. */
  lemma AddQueryStringShape(uri: string, pairs: seq<(string, string)>)
    requires pairs != []
    ensures AddQueryString(uri, pairs) == uri + (if '?' in uri then "&" else "?") + Joined(pairs)
  {
    var sep := if '?' in uri then "&" else "?";
    var first := Parameter(pairs[0]);
    var next := AddParameter(uri, pairs[0]);
    assert AddQueryString(uri, pairs) == AddQueryString(next, pairs[1..]);
    if |pairs| > 1 {
      var rest := Joined(pairs[1..]);
      calc {
        AddQueryString(next, pairs[1..]);
        { AddToQuery(next, pairs[1..]); }
        next + "&" + rest;
        uri + sep + first + "&" + rest;
        { Regroup(uri + sep, first, "&", rest); }
        uri + sep + (first + "&" + rest);
        uri + sep + Joined(pairs);
      }
    } else {
      assert Joined(pairs) == first;
    }
  }


  /** The index of the first `c` in `s`, or `|s|`. */
  function IndexOf(s: string, c: char): (r: nat)
    ensures r <= |s|
    ensures forall k :: 0 <= k < r ==> s[k] != c
    ensures r < |s| ==> s[r] == c
  {
    if s == [] then 0
    else if s[0] == c then 0
    else IndexOf(s[1..], c) + 1
  }

  lemma {:induction false} IndexOfSeparator(a: string, c: char, b: string)
    requires c !in a
    ensures IndexOf(a + [c] + b, c) == |a|
  {
    if a != [] {
      assert (a + [c] + b)[1..] == a[1..] + [c] + b;
      IndexOfSeparator(a[1..], c, b);
    }
  }

  lemma IndexOfAbsent(s: string, c: char)
    requires c !in s
    ensures IndexOf(s, c) == |s|
  {
  }

  lemma {:induction false} IndexOfPrefix(a: string, b: string, c: char)
    requires IndexOf(a, c) < |a|
    ensures IndexOf(a + b, c) == IndexOf(a, c)
  {
    if a[0] != c {
      assert (a + b)[1..] == a[1..] + b;
      IndexOfPrefix(a[1..], b, c);
    }
  }

  /** The pieces of `s` between `&` separators; each is free of `&`. */
  function Segments(s: string): (r: seq<string>)
    ensures r != []
    ensures forall k :: 0 <= k < |r| ==> '&' !in r[k]
    decreases |s|
  {
    var i := IndexOf(s, '&');
    if i == |s| then
      assert s[..i] == s;
      [s]
    else [s[..i]] + Segments(s[i + 1..])
  }

  lemma SegmentsNext(p: string, rest: string)
    requires '&' !in p
    ensures Segments(p + "&" + rest) == [p] + Segments(rest)
  {
    var s := p + "&" + rest;
    assert s == p + ['&'] + rest;
    IndexOfSeparator(p, '&', rest);
    assert s[..|p|] == p;
    assert s[|p| + 1..] == rest;
  }

  lemma SegmentsLast(p: string)
    requires '&' !in p
    ensures Segments(p) == [p]
  {
    IndexOfAbsent(p, '&');
  }

  lemma {:induction false} SegmentsAppend(q: string, p: string)
    requires '&' !in p
    ensures Segments(q + "&" + p) == Segments(q) + [p]
    decreases |q|
  {
    var i := IndexOf(q, '&');
    if i == |q| {
      assert q[..i] == q;
      SegmentsNext(q, p);
      SegmentsLast(p);
    } else {
      var s := q + "&" + p;
      var head := [q[..i]];
      IndexOfPrefix(q, "&" + p, '&');
      assert s == q + ("&" + p);
      assert s[..i] == q[..i];
      assert s[i + 1..] == q[i + 1..] + "&" + p;
      calc {
        Segments(s);
        head + Segments(q[i + 1..] + "&" + p);
        { SegmentsAppend(q[i + 1..], p); }
        head + (Segments(q[i + 1..]) + [p]);
        (head + Segments(q[i + 1..])) + [p];
        Segments(q) + [p];
      }
    }
  }

  /** A parameter read back: the name up to the first `=`, the value after it. */
  function ReadParameter(s: string): Option<(string, string)> {
    var j := IndexOf(s, '=');
    if j == |s| then None
    else match (Unescape(s[..j]), Unescape(s[j + 1..]))
      case (Some(name), Some(value)) => Some((name, value))
      case _ => None
  }

  /** Every segment read as a parameter, or nothing if one of them is not one. */
  function ReadAll(segments: seq<string>, read: string -> Option<(string, string)>)
    : (r: Option<seq<(string, string)>>)
    ensures r.Some? ==> |r.value| == |segments|
  {
    if segments == [] then Some([])
    else
      var first := read(segments[0]);
      var rest := ReadAll(segments[1..], read);
      if first.Some? && rest.Some? then Some([first.value] + rest.value) else None
  }

  /** The parameters of a uri: none without a `?`, else what follows the first `?`
      up to the fragment. */
  function ReadQuery(uri: string): Option<seq<(string, string)>> {
    ReadQueryWith(uri, ReadParameter)
  }

  /** The uri without its fragment: everything before the first `#`. */
  function BeforeFragment(uri: string): (r: string)
    ensures '#' !in r
    ensures '#' !in uri ==> r == uri
    ensures r <= uri
  {
    uri[..IndexOf(uri, '#')]
  }

  /** The query as a server sees it (section 3.4 of RFC 3986): the text after the
      first `?` and before the fragment, if there is such a `?`. */
  function QueryText(uri: string): (r: Option<string>)
    ensures r.None? <==> '?' !in BeforeFragment(uri)
    ensures r.Some? ==> '#' !in r.value
  {
    var b := BeforeFragment(uri);
    var i := IndexOf(b, '?');
    if i == |b| then None else Some(b[i + 1..])
  }

  /** The parameters of a uri, each segment read with `read`. */
  function ReadQueryWith(uri: string, read: string -> Option<(string, string)>): Option<seq<(string, string)>> {
    match QueryText(uri)
    case None => Some([])
    case Some(q) => ReadAll(Segments(q), read)
  }

  lemma ReadParameterOf(pair: (string, string))
    ensures ReadParameter(Parameter(pair)) == Some(pair)
  {
    var n := Escape(pair.0);
    var v := Escape(pair.1);
    assert Parameter(pair) == n + ['='] + v;
    IndexOfSeparator(n, '=', v);
    assert Parameter(pair)[..|n|] == n;
    assert Parameter(pair)[|n| + 1..] == v;
    UnescapeEscape(pair.0);
    UnescapeEscape(pair.1);
  }

  /** The rendered parameters, one string each. */
  function Parameters(pairs: seq<(string, string)>): (r: seq<string>)
    ensures |r| == |pairs|
  {
    seq(|pairs|, k requires 0 <= k < |pairs| => Parameter(pairs[k]))
  }

  /** Strings joined by `&`. */
  function Join(parts: seq<string>): string
    requires parts != []
    decreases |parts|
  {
    if |parts| == 1 then parts[0] else parts[0] + "&" + Join(parts[1..])
  }

  lemma {:induction false} JoinedParameters(pairs: seq<(string, string)>)
    requires pairs != []
    ensures Joined(pairs) == Join(Parameters(pairs))
    decreases |pairs|
  {
    if |pairs| > 1 {
      JoinedParameters(pairs[1..]);
      assert Parameters(pairs)[1..] == Parameters(pairs[1..]);
    }
  }

  lemma {:induction false} SegmentsJoin(parts: seq<string>)
    requires parts != []
    requires forall k :: 0 <= k < |parts| ==> '&' !in parts[k]
    ensures Segments(Join(parts)) == parts
    decreases |parts|
  {
    if |parts| == 1 {
      SegmentsLast(parts[0]);
    } else {
      SegmentsNext(parts[0], Join(parts[1..]));
      SegmentsJoin(parts[1..]);
      assert [parts[0]] + parts[1..] == parts;
    }
  }

  lemma SegmentsJoined(pairs: seq<(string, string)>)
    requires pairs != []
    ensures Segments(Joined(pairs)) == Parameters(pairs)
  {
    JoinedParameters(pairs);
    SegmentsJoin(Parameters(pairs));
  }

  /** Rendered parameters read back one by one with any reader that inverts `Parameter`. */
  lemma {:induction false} ReadAllRendered(pairs: seq<(string, string)>, read: string -> Option<(string, string)>)
    requires forall pair :: read(Parameter(pair)) == Some(pair)
    ensures ReadAll(Parameters(pairs), read) == Some(pairs)
  {
    if pairs != [] {
      ParametersCons(pairs);
      ReadAllRendered(pairs[1..], read);
      FirstThenRest(pairs);
    }
  }

  lemma ParametersCons(pairs: seq<(string, string)>)
    requires pairs != []
    ensures Parameters(pairs)[0] == Parameter(pairs[0])
    ensures Parameters(pairs)[1..] == Parameters(pairs[1..])
  {
  }

  lemma FirstThenRest<T>(xs: seq<T>)
    requires xs != []
    ensures [xs[0]] + xs[1..] == xs
  {
  }

  lemma ReadAllParameters(pairs: seq<(string, string)>)
    ensures ReadAll(Parameters(pairs), ReadParameter) == Some(pairs)
  {
    forall pair {
      ReadParameterOf(pair);
    }
    ReadAllRendered(pairs, ReadParameter);
  }

  lemma {:induction false} ReadAllAppend(segments: seq<string>, last: string,
                                         read: string -> Option<(string, string)>)
    requires ReadAll(segments, read).Some? && read(last).Some?
    ensures ReadAll(segments + [last], read) == Some(ReadAll(segments, read).value + [read(last).value])
  {
    if segments == [] {
      var v := read(last).value;
      assert segments + [last] == [last];
      assert [last][0] == last && [last][1..] == [];
      assert ReadAll([last][1..], read) == Some([]);
      assert [v] + [] == [v];
      assert ReadAll([last], read) == Some([v]);
      assert ReadAll(segments, read) == Some([]);
      assert ReadAll(segments, read).value + [v] == [v];
    } else {
      var all := segments + [last];
      assert all[0] == segments[0];
      assert all[1..] == segments[1..] + [last];
      assert ReadAll(segments[1..], read).Some?;
      ReadAllAppend(segments[1..], last, read);
      var head := [read(segments[0]).value];
      var tail := ReadAll(segments[1..], read).value;
      var x := [read(last).value];
      assert ReadAll(segments, read) == Some(head + tail);
      assert ReadAll(all, read) == Some(head + (tail + x));
      assert head + (tail + x) == (head + tail) + x;
    }
  }

  /** The query of a uri without `?` followed by `?` and more text is that text. */
  lemma QueryTextStart(uri: string, q: string)
    requires '?' !in uri && '#' !in uri && '#' !in q
    ensures QueryText(uri + "?" + q) == Some(q)
  {
    var s := uri + "?" + q;
    assert s == uri + ['?'] + q;
    assert BeforeFragment(s) == s;
    IndexOfSeparator(uri, '?', q);
    assert s[|uri| + 1..] == q;
  }

  /** Whatever parameters are added to a uri without a query, a reader of the result
      finds exactly those parameters, in the same order. */
  lemma ReadAddQueryString(uri: string, pairs: seq<(string, string)>)
    requires '?' !in uri && '#' !in uri
    ensures ReadQuery(AddQueryString(uri, pairs)) == Some(pairs)
  {
    if pairs != [] {
      AddQueryStringShape(uri, pairs);
      QueryTextStart(uri, Joined(pairs));
      SegmentsJoined(pairs);
      ReadAllParameters(pairs);
    }
  }

  /** Associativity of four strings, kept apart so that the proof above does not
      search for it among the other sequence facts in scope. */
  lemma Regroup(a: string, b: string, c: string, d: string)
    ensures a + b + c + d == a + (b + c + d)
  {
  }

  /** Text added after a uri that has a query extends that query. */
  lemma QueryTextAppend(uri: string, tail: string)
    requires '?' in uri && '#' !in uri && '#' !in tail
    ensures QueryText(uri + tail) == Some(QueryText(uri).value + tail)
  {
    assert BeforeFragment(uri + tail) == uri + tail;
    var i := IndexOf(uri, '?');
    IndexOfPrefix(uri, tail, '?');
    assert (uri + tail)[i + 1..] == uri[i + 1..] + tail;
  }

  lemma ReadQueryAppend(uri: string, p: string, read: string -> Option<(string, string)>)
    requires '?' in uri && '&' !in p && '#' !in uri && '#' !in p
    requires ReadQueryWith(uri, read).Some? && read(p).Some?
    ensures ReadQueryWith(uri + "&" + p, read) == Some(ReadQueryWith(uri, read).value + [read(p).value])
  {
    var q := QueryText(uri).value;
    assert uri + "&" + p == uri + ("&" + p);
    QueryTextAppend(uri, "&" + p);
    assert q + "&" + p == q + ("&" + p);
    SegmentsAppend(q, p);
    ReadAllAppend(Segments(q), p, read);
  }

  lemma ReadAddFirstParameter(uri: string, pair: (string, string))
    requires '?' !in uri && '#' !in uri
    ensures ReadQuery(uri) == Some([])
    ensures ReadQuery(AddParameter(uri, pair)) == Some([pair])
  {
    IndexOfAbsent(uri, '?');
    ReadAddQueryString(uri, [pair]);
    assert AddQueryString(uri, [pair]) == AddParameter(uri, pair);
  }

  /** Adding one parameter to a uri whose query reads back adds exactly that
      parameter at the end. */
  lemma ReadAddParameter(uri: string, pair: (string, string))
    requires ReadQuery(uri).Some? && '#' !in uri
    ensures ReadQuery(AddParameter(uri, pair)) == Some(ReadQuery(uri).value + [pair])
  {
    if '?' !in uri {
      ReadAddFirstParameter(uri, pair);
      assert ReadQuery(uri).value + [pair] == [pair];
    } else {
      var p := Parameter(pair);
      assert AddParameter(uri, pair) == uri + "&" + p;
      ReadParameterOf(pair);
      ReadQueryAppend(uri, p, ReadParameter);
    }
  }

  /** Text added after a uri with a fragment lands in the fragment: the query a
      server reads is unchanged. */
  lemma FragmentHidesAppend(uri: string, tail: string)
    requires '#' in uri
    ensures QueryText(uri + tail) == QueryText(uri)
  {
    IndexOfPrefix(uri, tail, '#');
    var f := IndexOf(uri, '#');
    assert (uri + tail)[..f] == uri[..f];
  }

  /** A parameter added to a uri with a fragment is invisible to a reader of its query. */
  lemma ReadAddParameterFragment(uri: string, pair: (string, string))
    requires '#' in uri
    ensures ReadQuery(AddParameter(uri, pair)) == ReadQuery(uri)
  {
    var sep := if '?' in uri then "&" else "?";
    assert AddParameter(uri, pair) == uri + (sep + Parameter(pair));
    FragmentHidesAppend(uri, sep + Parameter(pair));
  }
}

=== FILE: reply_path.dfy ===
/** `InvokeReplyPathAsync`: completing the handshake on the callback path, by
    signing the identity in under the configured type and redirecting to where the
    challenge asked to return. */
module ReplyPath {
  import opened Wrappers
  import opened Text
  import opened Claims
  import opened Protocol
  import opened QueryString
  import UriEscape

  /** The hint added to the return uri when sign-in failed. */
  const AccessDenied: (string, string) := ("error", "access_denied")

  /** The status `Response.Redirect` sets along with the Location header. */
  const RedirectStatus := 302

  /** The status set for a callback without a ticket. */
  const ServerErrorStatus := 500

  /** What the reply path did: whether it completed the request, the status it set,
      the sign-in it issued (properties and identity) and the redirect it sent. */
  datatype ReplyOutcome = ReplyOutcome(handled: bool, statusCode: Option<int>,
                                       signIn: Option<(Properties, Identity)>, redirect: Option<string>)

  /** `Options.CallbackPath.HasValue && Options.CallbackPath == Request.Path`:
      `PathString` equality ignores case. */
  predicate IsCallbackPath(callbackPath: string, path: string) {
    callbackPath != [] && EqualsIgnoreCase(callbackPath, path)
  }

  /** The identity signed in: the same identity when it already has the sign-in type
      (compared ordinally), otherwise a new one with the same claims, name claim type
      and role claim type under the sign-in type. */
  function GrantIdentity(identity: Identity, signInAs: string): (r: Identity)
    ensures r.authenticationType == signInAs
    ensures r.claims == identity.claims
    ensures r.nameClaimType == identity.nameClaimType && r.roleClaimType == identity.roleClaimType
  {
    if identity.authenticationType != signInAs then
      Identity(signInAs, identity.nameClaimType, identity.roleClaimType, identity.claims)
    else identity
  }

  /** Both halves of the hint are unreserved, so it goes out as written. */
  lemma AccessDeniedParameter()
    ensures Parameter(AccessDenied) == "error" + "=" + "access_denied"
  {
    EscapesToItself("error");
    EscapesToItself("access_denied");
    assert Parameter(AccessDenied) == UriEscape.Escape(AccessDenied.0) + "=" + UriEscape.Escape(AccessDenied.1);
  }

  lemma EscapesToItself(s: string)
    requires s == "error" || s == "access_denied"
    ensures UriEscape.Escape(s) == s
  {
    assert UriEscape.AllUnreserved(s);
    UriEscape.EscapeUnreserved(s);
  }

  lemma DeniedUriShape(redirectUri: string)
    ensures AddParameter(redirectUri, AccessDenied)
            == redirectUri + (if '?' in redirectUri then "&" else "?") + "error" + "=" + "access_denied"
  {
    var sep := if '?' in redirectUri then "&" else "?";
    AccessDeniedParameter();
    AppendHint(redirectUri, sep, Parameter(AccessDenied));
  }

  /** Substituting the rendered hint, stated apart so that the step above does not
      search for it among the other sequence facts in scope. */
  lemma AppendHint(uri: string, sep: string, hint: string)
    requires hint == "error" + "=" + "access_denied"
    ensures uri + sep + hint == uri + sep + "error" + "=" + "access_denied"
  {
  }

  lemma DeniedUriQuery(redirectUri: string)
    ensures ReadQuery(redirectUri).Some? && '#' !in redirectUri ==>
              ReadQuery(AddParameter(redirectUri, AccessDenied)) == Some(ReadQuery(redirectUri).value + [AccessDenied])
    ensures '#' in redirectUri ==> ReadQuery(AddParameter(redirectUri, AccessDenied)) == ReadQuery(redirectUri)
  {
    if '#' in redirectUri {
      ReadAddParameterFragment(redirectUri, AccessDenied);
    } else if ReadQuery(redirectUri).Some? {
      ReadAddParameter(redirectUri, AccessDenied);
    }
  }

  /** The return uri, with `error=access_denied` appended when there is no identity.
      Without a fragment, a reader of its query finds the original parameters and then
      the hint; with one, the hint is appended inside the fragment and the query read
      back is the original one. */
  function ReturnUri(redirectUri: string, identity: Option<Identity>): (r: string)
    ensures identity.Some? ==> r == redirectUri
    ensures identity.None? ==>
              r == redirectUri + (if '?' in redirectUri then "&" else "?") + "error" + "=" + "access_denied"
    ensures identity.None? && ReadQuery(redirectUri).Some? && '#' !in redirectUri ==>
              ReadQuery(r) == Some(ReadQuery(redirectUri).value + [AccessDenied])
    ensures identity.None? && '#' in redirectUri ==> ReadQuery(r) == ReadQuery(redirectUri)
  {
    if identity.None? then
      DeniedUriShape(redirectUri);
      DeniedUriQuery(redirectUri);
      AddParameter(redirectUri, AccessDenied)
    else redirectUri
  }

  /** The reply path, given the ticket the callback produced for this request. A
      request to another path is not handled. A null ticket is a 500. Otherwise
      the identity (if any) is signed in when a sign-in type is configured, and the
      request is redirected (a 302) to the ticket's return uri (if any) and then
      handled. */
  function InvokeReplyPath(options: Options, path: string, ticket: Option<Ticket>): (r: ReplyOutcome)
    ensures !IsCallbackPath(options.callbackPath, path) ==> r == ReplyOutcome(false, None, None, None)
    ensures IsCallbackPath(options.callbackPath, path) && ticket.None? ==>
              r == ReplyOutcome(true, Some(ServerErrorStatus), None, None)
    ensures r.statusCode == Some(ServerErrorStatus) <==> IsCallbackPath(options.callbackPath, path) && ticket.None?
    ensures r.statusCode == Some(RedirectStatus) <==> r.redirect.Some?
    ensures r.statusCode.Some? ==> r.statusCode == Some(ServerErrorStatus) || r.statusCode == Some(RedirectStatus)
    ensures r.signIn.Some? <==>
              && IsCallbackPath(options.callbackPath, path) && ticket.Some?
              && options.signInAsAuthenticationType.Some? && ticket.value.identity.Some?
    ensures r.signIn.Some? ==>
              && r.signIn.value.0 == ticket.value.properties
              && r.signIn.value.1.authenticationType == options.signInAsAuthenticationType.value
              && r.signIn.value.1.claims == ticket.value.identity.value.claims
              && r.signIn.value.1.nameClaimType == ticket.value.identity.value.nameClaimType
              && r.signIn.value.1.roleClaimType == ticket.value.identity.value.roleClaimType
    ensures r.redirect.Some? <==>
              IsCallbackPath(options.callbackPath, path) && ticket.Some? && ticket.value.properties.redirectUri.Some?
    ensures r.redirect.Some? ==>
              r.redirect.value == ReturnUri(ticket.value.properties.redirectUri.value, ticket.value.identity)
    ensures r.handled <==> IsCallbackPath(options.callbackPath, path) && (ticket.None? || r.redirect.Some?)
  {
    if !IsCallbackPath(options.callbackPath, path) then ReplyOutcome(false, None, None, None)
    else match ticket
      case None => ReplyOutcome(true, Some(ServerErrorStatus), None, None)
      case Some(Ticket(identity, properties)) =>
        var signIn :=
          match (options.signInAsAuthenticationType, identity)
          case (Some(signInAs), Some(id)) => Some((properties, GrantIdentity(id, signInAs)))
          case _ => None;
        match properties.redirectUri
        case None => ReplyOutcome(false, None, signIn, None)
        case Some(redirectUri) => ReplyOutcome(true, Some(RedirectStatus), signIn, Some(ReturnUri(redirectUri, identity)))
  }
}

=== FILE: text.dfy ===
/** The few `System.String` and `System.Char` operations the provider relies on,
    over Dafny strings (sequences of Unicode scalar values). */
module Text {
  import opened Wrappers

  /** `Char.IsWhiteSpace`: the Unicode White_Space characters. */
  predicate IsWhiteSpace(c: char) {
    || ('\t' <= c <= '\r')
    || c == ' '
    || c == '\U{85}'
    || c == '\U{A0}'
    || c == '\U{1680}'
    || ('\U{2000}' <= c <= '\U{200A}')
    || c == '\U{2028}'
    || c == '\U{2029}'
    || c == '\U{202F}'
    || c == '\U{205F}'
    || c == '\U{3000}'
  }

  predicate AllWhiteSpace(s: string) {
    forall i :: 0 <= i < |s| ==> IsWhiteSpace(s[i])
  }

  /** `String.IsNullOrEmpty`. */
  predicate IsNullOrEmpty(s: Option<string>) {
    s.None? || |s.value| == 0
  }

  /** `String.IsNullOrWhiteSpace`. */
  predicate IsNullOrWhiteSpace(s: Option<string>) {
    s.None? || AllWhiteSpace(s.value)
  }

  /** `String.TrimStart()` with no arguments: drops the longest all-white prefix. */
  function TrimStart(s: string): (r: string)
    ensures |r| <= |s| && r == s[|s| - |r|..]
    ensures AllWhiteSpace(s[..|s| - |r|])
    ensures r == [] || !IsWhiteSpace(r[0])
  {
    s[WhitePrefixLength(s)..]
  }

  /** The length of the longest all-white prefix. */
  function WhitePrefixLength(s: string): (n: nat)
    ensures n <= |s|
    ensures AllWhiteSpace(s[..n])
    ensures n == |s| || !IsWhiteSpace(s[n])
  {
    if |s| > 0 && IsWhiteSpace(s[0]) then
      var m := WhitePrefixLength(s[1..]);
      WhitePrefixStep(s, m + 1);
      m + 1
    else
      0
  }

  lemma WhitePrefixStep(s: string, k: nat)
    requires 1 <= k <= |s| && IsWhiteSpace(s[0]) && AllWhiteSpace(s[1..][..k - 1])
    ensures AllWhiteSpace(s[..k])
    ensures s[1..][k - 1..] == s[k..]
  {
    assert s[..k] == [s[0]] + s[1..][..k - 1];
  }

  lemma WhiteSuffixStep(s: string, k: nat)
    requires k < |s| && IsWhiteSpace(s[|s| - 1]) && AllWhiteSpace(s[..|s| - 1][k..])
    ensures AllWhiteSpace(s[k..])
    ensures s[..|s| - 1][..k] == s[..k]
  {
    assert s[k..] == s[..|s| - 1][k..] + [s[|s| - 1]];
  }

  /** `String.TrimEnd()` with no arguments: drops the longest all-white suffix. */
  function TrimEnd(s: string): (r: string)
    ensures |r| <= |s| && r == s[..|r|]
    ensures AllWhiteSpace(s[|r|..])
    ensures r == [] || !IsWhiteSpace(r[|r| - 1])
  {
    if |s| > 0 && IsWhiteSpace(s[|s| - 1]) then
      var r := TrimEnd(s[..|s| - 1]);
      WhiteSuffixStep(s, |r|);
      r
    else
      s
  }

  /** How many characters `TrimStart` drops. */
  function LeadingWhiteSpace(s: string): (n: nat)
    ensures n <= |s|
  {
    |s| - |TrimStart(s)|
  }

  /** `String.Trim()`: the longest infix of `s` with no white space at either end,
      everything cut away on either side being white space. */
  function Trim(s: string): (r: string)
    ensures LeadingWhiteSpace(s) + |r| <= |s|
    ensures r == s[LeadingWhiteSpace(s)..LeadingWhiteSpace(s) + |r|]
    ensures AllWhiteSpace(s[..LeadingWhiteSpace(s)])
    ensures AllWhiteSpace(s[LeadingWhiteSpace(s) + |r|..])
    ensures r == [] || (!IsWhiteSpace(r[0]) && !IsWhiteSpace(r[|r| - 1]))
  {
    var t := TrimStart(s);
    var r := TrimEnd(t);
    var i := |s| - |t|;
    PrefixOfSuffix(s, i, |r|);
    r
  }

  /** Slicing a suffix is slicing the whole. */
  lemma PrefixOfSuffix(s: string, i: nat, n: nat)
    requires i + n <= |s|
    ensures s[i..][..n] == s[i..i + n]
    ensures s[i..][n..] == s[i + n..]
  {
  }

  lemma {:induction false} TrimStartPadded(w: string, rest: string)
    requires AllWhiteSpace(w)
    requires rest == [] || !IsWhiteSpace(rest[0])
    ensures TrimStart(w + rest) == rest
  {
    if w == [] {
      assert w + rest == rest;
    } else {
      assert (w + rest)[1..] == w[1..] + rest;
      TrimStartPadded(w[1..], rest);
    }
  }

  lemma {:induction false} TrimEndPadded(rest: string, w: string)
    requires AllWhiteSpace(w)
    requires rest == [] || !IsWhiteSpace(rest[|rest| - 1])
    ensures TrimEnd(rest + w) == rest
    decreases |w|
  {
    if w == [] {
      assert rest + w == rest;
    } else {
      var s := rest + w;
      assert s[|s| - 1] == w[|w| - 1];
      assert s[..|s| - 1] == rest + w[..|w| - 1];
      TrimEndPadded(rest, w[..|w| - 1]);
    }
  }

  /** White space around a core that neither starts nor ends with white space is
      exactly what `Trim` removes. */
  lemma TrimPadded(w1: string, core: string, w2: string)
    requires AllWhiteSpace(w1) && AllWhiteSpace(w2)
    requires core == [] || (!IsWhiteSpace(core[0]) && !IsWhiteSpace(core[|core| - 1]))
    ensures Trim(w1 + core + w2) == core
  {
    if core == [] {
      assert w1 + core + w2 == (w1 + w2) + [];
      assert AllWhiteSpace(w1 + w2);
      TrimStartPadded(w1 + w2, []);
    } else {
      assert w1 + core + w2 == w1 + (core + w2);
      TrimStartPadded(w1, core + w2);
      TrimEndPadded(core, w2);
    }
  }

  /** ASCII upper-casing, the part of `OrdinalIgnoreCase` folding this model keeps. */
  function AsciiUpper(c: char): char {
    if 'a' <= c <= 'z' then (c as int - 32) as char else c
  }

  /** `String.Equals(a, b, StringComparison.OrdinalIgnoreCase)` restricted to ASCII letters. */
  predicate EqualsIgnoreCase(a: string, b: string) {
    |a| == |b| && forall i :: 0 <= i < |a| ==> AsciiUpper(a[i]) == AsciiUpper(b[i])
  }
}

=== FILE: uri_escape.dfy ===
/** `Uri.EscapeDataString` as section 2 of RFC 3986 defines percent-encoding: the
    UTF-8 bytes of the text, unreserved characters kept, every other byte written
    `%XY` in upper-case hexadecimal. `Unescape` is the reading side. */
module UriEscape {
  import opened Wrappers
  import Utf8

  /** The unreserved characters of section 2.3 of RFC 3986. */
  predicate IsUnreserved(c: char) {
    || ('A' <= c <= 'Z') || ('a' <= c <= 'z') || ('0' <= c <= '9')
    || c == '-' || c == '.' || c == '_' || c == '~'
  }

  /** The characters an escaped text is made of. */
  predicate IsEscapedChar(c: char) {
    IsUnreserved(c) || c == '%'
  }

  predicate AllEscapedChars(s: string) {
    forall i :: 0 <= i < |s| ==> IsEscapedChar(s[i])
  }

  function HexDigit(n: int): (c: char)
    requires 0 <= n < 16
    ensures IsUnreserved(c)
    ensures HexValue(c) == Some(n)
  {
    "0123456789ABCDEF"[n]
  }

  /** The value of a hexadecimal digit of either case. */
  function HexValue(c: char): (r: Option<int>)
    ensures r.Some? ==> 0 <= r.value < 16
  {
    if '0' <= c <= '9' then Some(c as int - '0' as int)
    else if 'A' <= c <= 'F' then Some(c as int - 'A' as int + 10)
    else if 'a' <= c <= 'f' then Some(c as int - 'a' as int + 10)
    else None
  }

  /** One byte: an unreserved ASCII character as itself, any other as `%XY`. */
  function EscapeByte(b: Utf8.byte): (r: string)
    ensures AllEscapedChars(r)
    ensures |r| == 1 || |r| == 3
  {
    if b < 0x80 && IsUnreserved(b as char) then [b as char]
    else ['%', HexDigit(b / 16), HexDigit(b % 16)]
  }

  function EscapeBytes(bs: seq<Utf8.byte>): (r: string)
    ensures AllEscapedChars(r)
    ensures |bs| <= |r| <= 3 * |bs|
  {
    if bs == [] then [] else EscapeByte(bs[0]) + EscapeBytes(bs[1..])
  }

  /** `Uri.EscapeDataString`. */
  function Escape(s: string): (r: string)
    ensures AllEscapedChars(r)
    ensures '&' !in r && '=' !in r && '?' !in r && '#' !in r
  {
    var r := EscapeBytes(Utf8.Encode(s));
    assert forall c :: c in r ==> IsEscapedChar(c);
    r
  }

  /** Reads an escaped text back to its bytes; anything but unreserved characters
      and well-formed `%XY` triples is refused. */
  function UnescapeBytes(s: string): (r: Option<seq<Utf8.byte>>)
  {
    if s == [] then Some([])
    else if s[0] == '%' then
      if |s| < 3 || HexValue(s[1]).None? || HexValue(s[2]).None? then None
      else match UnescapeBytes(s[3..])
        case None => None
        case Some(rest) => Some([16 * HexValue(s[1]).value + HexValue(s[2]).value] + rest)
    else if IsUnreserved(s[0]) then
      match UnescapeBytes(s[1..])
      case None => None
      case Some(rest) => Some([s[0] as int] + rest)
    else None
  }

  /** The text an escaped string stands for. */
  function Unescape(s: string): Option<string> {
    match UnescapeBytes(s)
    case None => None
    case Some(bs) => Utf8.Decode(bs)
  }

  lemma EscapeByteThenRest(b: Utf8.byte, rest: string)
    ensures UnescapeBytes(EscapeByte(b) + rest)
            == (match UnescapeBytes(rest) case None => None case Some(bs) => Some([b] + bs))
  {
    var e := EscapeByte(b);
    if b < 0x80 && IsUnreserved(b as char) {
      assert (e + rest)[1..] == rest;
    } else {
      assert (e + rest)[3..] == rest;
      assert HexValue(e[1]) == Some(b / 16);
      assert HexValue(e[2]) == Some(b % 16);
    }
  }

  lemma {:induction false} UnescapeEscapeBytes(bs: seq<Utf8.byte>)
    ensures UnescapeBytes(EscapeBytes(bs)) == Some(bs)
  {
    if bs != [] {
      UnescapeEscapeBytes(bs[1..]);
      EscapeByteThenRest(bs[0], EscapeBytes(bs[1..]));
      assert [bs[0]] + bs[1..] == bs;
    }
  }

  /** Escaping loses nothing: the escaped text reads back as the original. */
  lemma UnescapeEscape(s: string)
    ensures Unescape(Escape(s)) == Some(s)
  {
    UnescapeEscapeBytes(Utf8.Encode(s));
    Utf8.DecodeEncode(s);
  }

  /** Different texts escape differently. */
  lemma EscapeInjective(s: string, t: string)
    requires Escape(s) == Escape(t)
    ensures s == t
  {
    UnescapeEscape(s);
    UnescapeEscape(t);
  }

  predicate AllUnreserved(s: string) {
    forall i :: 0 <= i < |s| ==> IsUnreserved(s[i])
  }

  lemma {:induction false} EscapeBytesUnreserved(s: string)
    requires AllUnreserved(s)
    ensures EscapeBytes(seq(|s|, i requires 0 <= i < |s| => s[i] as int)) == s
  {
    if s != [] {
      var bs := seq(|s|, i requires 0 <= i < |s| => s[i] as int);
      EscapeBytesUnreserved(s[1..]);
      assert bs[1..] == seq(|s[1..]|, i requires 0 <= i < |s[1..]| => s[1..][i] as int);
      assert [s[0]] + s[1..] == s;
    }
  }

  /** A text of unreserved characters is its own escape. */
  lemma EscapeUnreserved(s: string)
    requires AllUnreserved(s)
    ensures Escape(s) == s
  {
    Utf8.EncodeAscii(s);
    var bs := seq(|s|, i requires 0 <= i < |s| => s[i] as int);
    assert Utf8.Encode(s) == bs;
    EscapeBytesUnreserved(s);
  }
}

=== FILE: utf8.dfy ===
/** `Encoding.UTF8.GetBytes` over Unicode scalar values (section 3 of RFC 3629),
    together with a strict decoder that serves as its inverse. */
module Utf8 {
  import opened Wrappers

  type byte = b: int | 0 <= b < 256

  /** Code points that a Dafny `char` can hold: every scalar value, no surrogates. */
  predicate IsScalar(cp: int) {
    (0 <= cp < 0xD800) || (0xE000 <= cp < 0x11_0000)
  }

  predicate IsContinuation(b: byte) {
    0x80 <= b < 0xC0
  }

  /** The one- to four-byte encoding of a single scalar value. */
  function EncodeChar(c: char): (r: seq<byte>)
    ensures 1 <= |r| <= 4
    ensures |r| == 1 <==> (c as int) < 0x80
    ensures forall i :: 1 <= i < |r| ==> IsContinuation(r[i])
  {
    var cp := c as int;
    if cp < 0x80 then
      [cp]
    else if cp < 0x800 then
      [0xC0 + cp / 0x40, 0x80 + cp % 0x40]
    else if cp < 0x1_0000 then
      [0xE0 + cp / 0x1000, 0x80 + (cp / 0x40) % 0x40, 0x80 + cp % 0x40]
    else
      [0xF0 + cp / 0x4_0000, 0x80 + (cp / 0x1000) % 0x40, 0x80 + (cp / 0x40) % 0x40, 0x80 + cp % 0x40]
  }

  /** `Encoding.UTF8.GetBytes(s)`: the concatenation of every character's encoding. */
  function Encode(s: string): (r: seq<byte>)
    ensures |s| <= |r| <= 4 * |s|
  {
    if s == [] then [] else EncodeChar(s[0]) + Encode(s[1..])
  }

  /** Decodes the first scalar value of `bs`, returning it with the number of
      bytes it took. Overlong forms, surrogates and values beyond U+10FFFF are refused. */
  function DecodeFirst(bs: seq<byte>): (r: Option<(char, nat)>)
    ensures r.Some? ==> 1 <= r.value.1 <= |bs| && r.value.1 <= 4
  {
    if |bs| == 0 then None
    else
      var b0: int := bs[0];
      if b0 < 0x80 then Some((b0 as char, 1))
      else if 0xC0 <= b0 < 0xE0 && |bs| >= 2 && IsContinuation(bs[1]) then
        var cp := (b0 - 0xC0) * 0x40 + (bs[1] as int - 0x80);
        if 0x80 <= cp then Some((cp as char, 2)) else None
      else if 0xE0 <= b0 < 0xF0 && |bs| >= 3 && IsContinuation(bs[1]) && IsContinuation(bs[2]) then
        var cp := (b0 - 0xE0) * 0x1000 + (bs[1] as int - 0x80) * 0x40 + (bs[2] as int - 0x80);
        if 0x800 <= cp && IsScalar(cp) then Some((cp as char, 3)) else None
      else if 0xF0 <= b0 < 0xF8 && |bs| >= 4 && IsContinuation(bs[1]) && IsContinuation(bs[2]) && IsContinuation(bs[3]) then
        var cp := (b0 - 0xF0) * 0x4_0000 + (bs[1] as int - 0x80) * 0x1000 + (bs[2] as int - 0x80) * 0x40 + (bs[3] as int - 0x80);
        if 0x1_0000 <= cp < 0x11_0000 then Some((cp as char, 4)) else None
      else None
  }

  /** Strict UTF-8 decoding; `None` for any ill-formed byte sequence. */
  function Decode(bs: seq<byte>): (r: Option<string>)
    ensures r.Some? ==> |r.value| <= |bs|
    decreases |bs|
  {
    if bs == [] then Some([])
    else match DecodeFirst(bs)
      case None => None
      case Some((c, n)) =>
        match Decode(bs[n..])
        case None => None
        case Some(rest) => Some([c] + rest)
  }

  /** Splitting a number into a high part and a six-bit low part. */
  lemma SixBits(x: nat)
    ensures x == (x / 0x40) * 0x40 + x % 0x40
    ensures 0 <= x % 0x40 < 0x40
  {
  }

  lemma DivDiv64(x: nat, k: nat)
    requires k == 0x40 || k == 0x1000
    ensures (x / k) / 0x40 == x / (k * 0x40)
  {
    var q := x / (k * 0x40);
    var r := x % (k * 0x40);
    assert x == q * (k * 0x40) + r && 0 <= r < k * 0x40;
    assert x / k == q * 0x40 + r / k by {
      assert x == (q * 0x40 + r / k) * k + r % k;
    }
  }

  /** The arithmetic of a three-byte sequence: lead bits, then two six-bit groups. */
  lemma ThreeGroups(cp: nat)
    ensures cp == (cp / 0x1000) * 0x1000 + ((cp / 0x40) % 0x40) * 0x40 + cp % 0x40
  {
    SixBits(cp);
    SixBits(cp / 0x40);
    DivDiv64(cp, 0x40);
  }

  /** The arithmetic of a four-byte sequence: lead bits, then three six-bit groups. */
  lemma FourGroups(cp: nat)
    ensures cp == (cp / 0x4_0000) * 0x4_0000 + ((cp / 0x1000) % 0x40) * 0x1000
                  + ((cp / 0x40) % 0x40) * 0x40 + cp % 0x40
  {
    ThreeGroups(cp);
    SixBits(cp / 0x1000);
    DivDiv64(cp, 0x1000);
  }

  /** Decoding the encoding of one character, whatever follows it, gives it back. */
  lemma DecodeFirstEncodeChar(c: char, rest: seq<byte>)
    ensures DecodeFirst(EncodeChar(c) + rest) == Some((c, |EncodeChar(c)|))
  {
    var cp := c as int;
    var bs := EncodeChar(c) + rest;
    if cp < 0x80 {
    } else if cp < 0x800 {
      SixBits(cp);
      assert (bs[0] as int - 0xC0) * 0x40 + (bs[1] as int - 0x80) == cp;
    } else if cp < 0x1_0000 {
      ThreeGroups(cp);
      assert (bs[0] as int - 0xE0) * 0x1000 + (bs[1] as int - 0x80) * 0x40 + (bs[2] as int - 0x80) == cp;
    } else {
      FourGroups(cp);
      assert (bs[0] as int - 0xF0) * 0x4_0000 + (bs[1] as int - 0x80) * 0x1000
             + (bs[2] as int - 0x80) * 0x40 + (bs[3] as int - 0x80) == cp;
    }
  }

  /** Round trip: every string is recovered from its UTF-8 bytes. */
  lemma {:induction false} DecodeEncode(s: string)
    ensures Decode(Encode(s)) == Some(s)
  {
    if s != [] {
      var e := EncodeChar(s[0]);
      DecodeFirstEncodeChar(s[0], Encode(s[1..]));
      assert (e + Encode(s[1..]))[|e|..] == Encode(s[1..]);
      DecodeEncode(s[1..]);
      assert [s[0]] + s[1..] == s;
    }
  }

  /** Consequently the encoding is injective: distinct strings have distinct bytes. */
  lemma EncodeInjective(s: string, t: string)
    requires Encode(s) == Encode(t)
    ensures s == t
  {
    DecodeEncode(s);
    DecodeEncode(t);
  }

  /** ASCII characters encode as themselves, one byte each. */
  lemma {:induction false} EncodeAscii(s: string)
    requires forall i :: 0 <= i < |s| ==> (s[i] as int) < 0x80
    ensures |Encode(s)| == |s|
    ensures forall i :: 0 <= i < |s| ==> Encode(s)[i] == s[i] as int
  {
    if s != [] {
      EncodeAscii(s[1..]);
    }
  }

  /** Encoding distributes over concatenation. */
  lemma {:induction false} EncodeAppend(s: string, t: string)
    ensures Encode(s + t) == Encode(s) + Encode(t)
  {
    if s == [] {
      assert s + t == t;
    } else {
      assert (s + t)[1..] == s[1..] + t;
      EncodeAppend(s[1..], t);
    }
  }
}

=== FILE: wrappers.dfy ===
/** Optional values and failures shared by every module of the model.
    `Option` stands for a .NET reference that may be null; `Result` for a
    computation that either returns or throws one of the `Fault`s below. */
module Wrappers {

  /** A nullable .NET reference: `None` is `null`. */
  datatype Option<+T> = None | Some(value: T) {

    /** The C# `??` operator. */
    function GetOr(default: T): T {
      match this
      case Some(v) => v
      case None => default
    }
  }

  /** Either a value or the exception that was thrown instead. */
  datatype Result<+T, +E> = Ok(value: T) | Err(error: E) {

    /** The value, or `None` for a failure. */
    function ToOption(): Option<T> {
      match this
      case Ok(v) => Some(v)
      case Err(_) => None
    }
  }

  /** The exceptions the modelled code can raise or let escape. */
  datatype Fault =
    | NullReference
    | InvalidCast
    | InvalidOperation(message: string)
    | Argument(message: string)
    | ArgumentOutOfRange(paramName: string)
    | HttpRequest(status: int)
    | Transport
    | JsonReader
}
